=== FILE: README.md ===
# scoopie: resolution, download planning and query translation

This project is a Dafny model of the core of scoopie, a Windows package
manager in the style of Scoop. The model covers four parts:

- **Registry lookups** (`Buckets`). The registry maps bucket names to buckets,
  and each bucket maps app names to manifests. `get_app` returns the first
  manifest for an app in iteration order. `get_app_from` looks in one named
  bucket. The colourless `Display` listing prints one two-line block per
  (app, bucket) pair.
- **The download pipeline** (`Downloads`). `build_for` resolves a reference
  (`app` or `bucket/app`) to a manifest through the search index and plans one
  artifact per (URL, hash) pair. Each artifact gets a cache file name with no
  `/` in it. `download` keeps the artifacts whose file is not yet cached and
  hands them to the transfer driver. When something was fetched and
  verification was asked for, it then checks the whole plan's hashes. When
  every file is cached it neither fetches nor verifies.
- **The `query` command** (`QueryCommand`). It decides whether a search term
  becomes a keyword query or an AND-ed full-text query, builds the query
  string, and prints the index's answer.
- **Path helpers** (`Utils`). `rm` maps I/O error kinds to application
  errors. `absolute` maps a canonicalisation failure to
  `AbsoultePathResolve` and strips the Windows verbatim prefix `\\?\`.

Supporting modules:

- `Prelude` holds `Option` and `Result`.
- `Errors` holds the error enums.
- `Manifests` holds the manifest record.
- `Strings` models the Rust string operations the core uses: `trim`,
  `split_whitespace`, `join`, `split_once`, `replace` and ASCII
  `to_lowercase`. Each comes with the laws the core relies on.

Collaborators enter as parameters:

- The search index (`Bucket::query`) is a function from (mode, query string)
  to a result.
- `Config::read` and `Config::cache_dir` are `Result` values.
- The cache directory's contents are a set of file names.
- The hash check (`Hash::verify`) is a predicate over (expected hash, file
  name).
- The transfer driver is a function whose outcome the pipeline discards,
  as the source does.

Behaviour of the code worth knowing:

- Planning uses `zip`, so a manifest with fewer hashes than URLs loses the
  surplus URLs. Every planned artifact has a hash (`Downloads.Plan`).
- Only a space character turns a query into a full-text query. A tab between
  two words leaves the term a keyword query, although `split_whitespace`
  would split it (`QueryCommand.TranslateTabIsKeyword`).
- Cache file names are not collision-resistant. Two URLs with the same
  fragment whose paths differ only in `/` versus `_` share a name, for example
  `/x/y` and `/x_y` (`Downloads.FileNameCollision`).
- A requested verification runs only when something was fetched. When every
  file is already cached, `download` reports "already in cache" without
  checking any hash, so a corrupted cached file goes unnoticed
  (`Downloads.SecondRunIsCached`).
- The transfer driver's outcome is dropped (`let _s = ...`), so a failed
  transfer does not abort `download` (`Downloads.TransferOutcomeIgnored`).

## Model

| member | source | states |
|---|---|---|
| Buckets.FindEntry | src/core/buckets/mod.rs:26 | the position found for an app name is the first entry with that name; `None` exactly when the bucket has no such entry |
| Buckets.FindBucket | src/core/buckets/mod.rs:26 | the position found for a bucket name is the first bucket with that name; `None` exactly when no bucket has it |
| Buckets.GetAppFrom | src/core/buckets/mod.rs:25-27 | a manifest returned for (app, bucket) is one that the named bucket maps the app to, taken from the first bucket of that name and its first entry of that app name |
| Buckets.GetAppFromExact | src/core/buckets/mod.rs:25-27 | when bucket and app names are unique keys, the lookup returns `m` if and only if the named bucket maps the app to `m` |
| Buckets.GetAppFromMissing | src/core/buckets/mod.rs:25-27 | when bucket names are unique keys, the lookup answers `None` exactly when no bucket of that name lists the app, even if app names repeat within a bucket |
| Buckets.GetApp | src/core/buckets/mod.rs:29-35 | `None` exactly when no bucket has the app; otherwise the manifest of the first match in bucket order, then entry order |
| Buckets.GetAppSingleBucket | src/core/buckets/mod.rs:25-35 | for an app published by exactly one bucket, looking in every bucket and looking in that bucket by name give the same manifest |
| Buckets.ExactQueryAgrees | src/core/buckets/mod.rs:29-35 | first-match lookup over an exact-name index answer agrees with `get_app` on the whole registry |
| Buckets.BucketListing | src/core/buckets/mod.rs:48-53 | one bucket's blocks in entry order: empty exactly when the bucket has no entries, otherwise starting with the first entry's block and ending a line |
| Buckets.Listing | src/core/buckets/mod.rs:38-58 | the listing of every bucket's entries, bucket by bucket; it is empty exactly when no bucket has an entry, and otherwise its last character ends a line |
| Buckets.ListingAppend | src/core/buckets/mod.rs:43-55 | the listing of two registries placed one after the other is the two listings concatenated |
| Buckets.BlockLines | src/core/buckets/mod.rs:52 | the block for one app takes exactly two lines when no field holds a line break |
| Buckets.ListingLines | src/core/buckets/mod.rs:38-58 | the listing has exactly two lines per (bucket, app) pair when no name, version or description holds a line break |
| Buckets.ListingExample | src/core/buckets/mod.rs:52 | app `foo` v1.0 in bucket `main` is shown as `foo/main  v1.0`, then the indented description |
| Downloads.FileName | src/core/download.rs:67 | the cache file name has no `/`; it is `app_version` followed by the URL path and fragment, with every `/` turned into `_` and every other character kept |
| Downloads.FileNameOfPath | src/core/download.rs:67 | a URL path `/dir/file` gives the name `app_version_dir_file` |
| Downloads.FileNameOfFile | src/core/download.rs:67 | a URL path `/file` gives the name `app_version_file` |
| Downloads.FileNameExample | src/core/download.rs:67 | `foo` 1.0 downloading `https://example.com/foo.zip` caches it as `foo_1.0_foo.zip` |
| Downloads.FileNameCollision | src/core/download.rs:67 | any two URLs with the same fragment and paths of equal length that agree except where one has `/` and the other `_` get the same cache file name |
| Downloads.FileNameCollisionExample | src/core/download.rs:67 | for example, paths `/x/y` and `/x_y` on different hosts share a cache file name |
| Downloads.Zip | src/core/download.rs:62-65 | pairs position `i` of both inputs and stops when the shorter input ends |
| Downloads.Describe | src/core/download.rs:66-71 | one artifact per (URL, hash) pair, in order, each with its cache file name, hash and URL |
| Downloads.Plan | src/core/download.rs:59-73 | the plan carries the app name and the manifest version; it has min(#urls, #hashes) artifacts, and artifact `i` binds `url[i]` to `hash[i]` |
| Downloads.Fetch | src/core/download.rs:50-74 | an index failure is passed on; otherwise the call fails with `NoAppFound(app)` exactly when no returned bucket lists the app, and succeeds with the plan of the first match |
| Downloads.FetchFrom | src/core/download.rs:76-102 | an index failure is passed on; any other failure is `NoAppFoundInBucket(app, bucket)`; a success is the plan of the first entry named `app` in the first bucket with that name, as `find_first` picks it |
| Downloads.FetchFromFailsExactly | src/core/download.rs:79-85 | when the index answer has unique bucket names (its entry lists may repeat app names), `fetch_from` fails exactly when no bucket of that name lists the app |
| Downloads.Resolve | src/core/download.rs:141-146 | a reference with a `/` is split at its first `/` into bucket and app; any other reference is trimmed, lower-cased and looked up in every bucket |
| Downloads.ResolveQualified | src/core/download.rs:143-144 | `bucket/app`, with no `/` in the bucket, is looked up exactly as written in the named bucket |
| Downloads.ResolveSingle | src/core/download.rs:141-146 | a plain lower-case name resolves to the plan of the first match in the index answer, in bucket order and then entry order, whatever else the answer holds |
| Downloads.BuildFor | src/core/download.rs:140-162 | the first failure wins, in the order resolution, configuration, cache directory, and is returned unchanged; on success the downloader holds the plan, the configured retries and concurrency, and the cache directory |
| Downloads.Exists | src/core/download.rs:22-25 | fails with the cache directory's error exactly when it cannot be determined; otherwise true exactly when the artifact's file is in the cache |
| Downloads.Pending | src/core/download.rs:106-115 | fails exactly when the plan is non-empty and the cache directory cannot be determined; otherwise returns the uncached artifacts' requests in plan order |
| Downloads.UncachedMembers | src/core/download.rs:109-113 | every request comes from an uncached artifact, and every uncached artifact is requested |
| Downloads.UncachedAppend | src/core/download.rs:107-114 | filtering keeps plan order: the requests for a plan split in two are the first part's requests followed by the second part's |
| Downloads.UncachedNoneCached | src/core/download.rs:109-111 | with no file cached, every artifact is requested, in plan order |
| Downloads.Verify | src/core/download.rs:117-120 | fails exactly when the cache directory cannot be determined; otherwise true exactly when every artifact of the full plan passes its hash check |
| Downloads.AllVerified | src/core/download.rs:119 | true exactly when every artifact passes its hash check; an empty plan passes |
| Downloads.RunDownload | src/core/download.rs:166-185 | success is always `Success`; fails exactly when the cache directory is unknown and the plan is non-empty; reports "already in cache" exactly when every planned file is cached; otherwise transfers the non-empty uncached batch, and the result is verified exactly when verification was asked for and every artifact passes |
| Downloads.SecondRunIsCached | src/core/download.rs:173-182 | once a run's batch has landed in the cache, a second run reports "already in cache", fetching nothing and checking no hash even when verification is asked for |
| Downloads.TransferOutcomeIgnored | src/core/download.rs:176-177 | the transfer driver's result has no effect on the outcome of `download` |
| Downloads.RunEmptyCache | src/core/download.rs:173-179 | with an empty cache, a non-empty plan is requested whole and in order |
| Downloads.FreshDownload | src/core/download.rs:140-185 | end to end: given a readable configuration and a plain lower-case name whose first index match has at least one URL and one hash, the downloader is built for that match's plan, and into an empty cache every artifact of that plan is requested in order and verified when asked |
| Downloads.FooScenario | src/core/download.rs:140-185 | `foo` v1.0 with one URL and a matching hash, into an empty cache: exactly `foo_1.0_foo.zip` is fetched and the result is verified |
| QueryCommand.Translate | src/commands/query.rs:17-24 | never an app query; full-text exactly when the trimmed term has a space; a keyword query is the trimmed term plus `*`; a full-text query, without its trailing `*`, splits into the term's words with `AND` between each pair |
| QueryCommand.FullTextHasTwoWords | src/commands/query.rs:19-21 | a full-text query joins at least two words, so it has 2n-1 words for n words of the term |
| QueryCommand.TwoWords | src/commands/query.rs:19-21 | a trimmed term that holds a space has at least two words |
| QueryCommand.Exec | src/commands/query.rs:16-29 | the index is asked once, with the translated term, and its failure is passed on unchanged; on success the output ends with a line break and, when no field of the answer holds one, has exactly 2n+1 line breaks for n matches |
| QueryCommand.ExecNoMatches | src/commands/query.rs:25-28 | an empty answer prints one empty line, not an error |
| QueryCommand.FullTextWords | src/commands/query.rs:21-22 | the ` AND `-joined words, once the `*` is taken off, split back into the words with `AND` between each pair |
| QueryCommand.TranslatePair | src/commands/query.rs:19-22 | two words separated by whitespace containing a space become the full-text query `a AND b*` |
| QueryCommand.TranslateWord | src/commands/query.rs:17-24 | one word with surrounding whitespace becomes the keyword query `word*` |
| QueryCommand.TranslateTabIsKeyword | src/commands/query.rs:19-24 | two words separated by a tab go out verbatim as a keyword query, although they split into two words |
| QueryCommand.TranslateTwoWordsExample | src/commands/query.rs:21-22 | `foo bar` becomes the full-text query `foo AND bar*` |
| QueryCommand.TranslateOneWordExample | src/commands/query.rs:24 | `foo` becomes the keyword query `foo*` |
| Strings.Trim | src/commands/query.rs:17 | the result is a slice of the input with only whitespace before and after it, and it neither starts nor ends with whitespace |
| Strings.TrimAround | src/commands/query.rs:17 | trimming removes exactly the whitespace around a string that has none at its ends |
| Strings.SplitWhitespace | src/commands/query.rs:21 | the maximal runs of non-whitespace characters in order; no words exactly when the input is all whitespace |
| Strings.SplitWhitespaceReassembles | src/commands/query.rs:21 | the words, put back between the whitespace runs, give back the input |
| Strings.SplitWhitespaceWords | src/commands/query.rs:21 | every word is non-empty and holds no whitespace |
| Strings.Join | src/commands/query.rs:21 | no words join to the empty string; otherwise the result starts with the first word and its length is the words' total length plus one separator per adjacent pair |
| Strings.SplitJoin | src/commands/query.rs:21 | splitting words joined by ` AND ` gives back the words with `AND` between each pair |
| Strings.JoinIntersperse | src/commands/query.rs:21 | joining with ` w ` equals joining the words with `w` interleaved, by single spaces |
| Strings.SplitPair | src/commands/query.rs:21 | two words with whitespace between them split into exactly those two words |
| Strings.IndexOf | src/core/download.rs:143 | the position found is the first occurrence of the character; `None` exactly when it does not occur |
| Strings.SplitOnce | src/core/download.rs:143 | `None` exactly when the separator is absent; otherwise the input is the head, the separator and the tail, and the head has no separator |
| Strings.ReplaceChar | src/core/download.rs:67 | same length; each occurrence of the old character becomes the new one and every other character is kept; no old character remains when the two characters differ |
| Strings.ReplaceCharAppend | src/core/download.rs:67 | replacing in a concatenation is the concatenation of the replacements |
| Strings.AsciiLower | src/core/download.rs:141 | same length; ASCII capitals move down by 32, everything else is kept; no ASCII capital remains |
| Strings.AsciiLowerFixed | src/core/download.rs:141 | a string with no ASCII capital is unchanged |
| Utils.RemovalError | src/utils/mod.rs:33-37 | not found becomes `FileNotExist` with the path, permission denied becomes `PermissionDenied`, any other kind becomes `Unknown`, and each only from its kind |
| Utils.Rm | src/utils/mod.rs:28-38 | a file is removed alone, anything else as a tree; success exactly when the file system succeeds, and each error exactly from its I/O kind |
| Utils.RmErrors | src/utils/mod.rs:33-37 | a removal error is one of `FileNotExist(path)`, `PermissionDenied` and `Unknown` |
| Utils.StripVerbatimPrefix | src/utils/mod.rs:72-77 | a prefixed path is the prefix followed by the result; any other path is kept |
| Utils.Absolute | src/utils/mod.rs:65-78 | fails with `AbsoultePathResolve` exactly when canonicalisation fails; otherwise the canonical path with or without its prefix, and shorter exactly when it had the prefix |
| Utils.StripPrefixed | src/utils/mod.rs:73-74 | stripping undoes prefixing |
| Utils.StripOnce | src/utils/mod.rs:73-74 | only one prefix is removed from a doubly prefixed path |
| Utils.AbsoluteExamples | src/utils/mod.rs:65-78 | `C:\scoop` is kept, `\\?\C:\scoop` becomes `C:\scoop`, and a failure becomes `AbsoultePathResolve` |

## Left out

- The network transfer (tokio runtime, trauma driver, retries and concurrency) is not modelled. The driver is a function parameter whose result is discarded, as in the source.
- Parallel iteration (rayon `par_iter`, `find_map_first`, `find_first`) is modelled sequentially. Every use in the core keeps order or picks the first match in order, so the result is the same.
- `Config::read` and `Config::cache_dir` are file-system reads. They are `Result` values. `get` and `verify` re-read `Config::cache_dir`; `Downloads.RunDownload` takes one value for both reads, which need not equal the directory the downloader stored. Only the end-to-end lemmas (`Downloads.FreshDownload`, `Downloads.FooScenario`) pass the same directory to both.
- The existence check on the cache directory is modelled as membership in a set of cached file names.
- `Hash::verify` (hashing a file) is the `hashOk` parameter. The panic of its `unwrap` on an I/O error is not modelled.
- QueryCommand.Exec: the index answer is assumed to print as the `Buckets` listing. Its type and `Display` are not among the modelled files.
- `Bucket::query` (the search index) is not part of this model. It is a parameter, and `Buckets.ExactQuery` gives one answer consistent with exact-name lookup.
- `HashMap` iteration order is unspecified in the source. It is fixed here as sequence order.
- URL parsing is not modelled. A URL carries its path and optional fragment as given.
- Manifest deserialisation is not modelled.
- Console colours (`style(...)`) are not modelled. Neither are the `println!` lines of `build_for` and `download`, which `Downloads.Activity` makes observable instead.
- Downloads.Resolve: lower-casing is ASCII only, while Rust's `to_lowercase` also maps non-ASCII capitals.
- Utils.Absolute: `to_string_lossy` replaces ill-formed UTF-16. Paths are taken as already well-formed strings.
- `CreateDir::create` (mapping to `FailedToMkdir`) is not modelled. It is a one-line wrapper around the file system outside the core operations.
- `max_retries` is a `u32` that is only stored and passed to the driver. It is kept as a bounded value without arithmetic.

=== FILE: buckets.dfy ===
/** The in-memory registry: bucket name -> (app name -> manifest). The source
    keeps both levels in `HashMap`s, whose iteration order is unspecified; the
    model fixes it as the order of a sequence, so "first bucket that has the
    app" means first in that sequence. The search index answers queries in
    the same shape (bucket name -> matching entries), so query results use
    the same datatype. */
module Buckets {
  import opened Prelude
  import opened Strings
  import opened Manifests
  import opened Errors

  type AppName = string
  type BucketName = string

  datatype Entry = Entry(appName: AppName, manifest: Manifest)

  /** One bucket: its name and its entries in iteration order. */
  datatype Bucket = Bucket(name: BucketName, entries: seq<Entry>)

  /** The modes of the search index (declared next to `Bucket::query`, which
      is not part of this model). */
  datatype QueryKind = APP | KEYWORD | FULLTEXT

  /** The search index `Bucket::query`, as a capability: it answers a (mode,
      query string) pair with the matching entries grouped by bucket, or
      fails. */
  type Index = (QueryKind, string) -> Result<seq<Bucket>, ScoopieError>

  // ---------------------------------------------------------------------
  // Shape of a registry

  predicate HasApp(entries: seq<Entry>, app: AppName) {
    exists j :: 0 <= j < |entries| && entries[j].appName == app
  }

  /** Keys of a `HashMap` are unique: app names within a bucket ... */
  predicate UniqueApps(entries: seq<Entry>) {
    forall j, l :: 0 <= j < l < |entries| ==> entries[j].appName != entries[l].appName
  }

  /** ... and bucket names within the registry. */
  predicate UniqueBucketNames(bs: seq<Bucket>) {
    forall i, k :: 0 <= i < k < |bs| ==> bs[i].name != bs[k].name
  }

  predicate WellFormed(bs: seq<Bucket>) {
    && UniqueBucketNames(bs)
    && forall i :: 0 <= i < |bs| ==> UniqueApps(bs[i].entries)
  }

  /** No bucket of `bs` has an entry named `app`. */
  predicate Absent(bs: seq<Bucket>, app: AppName) {
    forall i :: 0 <= i < |bs| ==> !HasApp(bs[i].entries, app)
  }

  /** Entry `j` of bucket `i` is the first match for `app` in iteration
      order: no earlier bucket has the app, and no earlier entry of bucket
      `i` is named `app`. */
  predicate FirstMatchAt(bs: seq<Bucket>, app: AppName, i: nat, j: nat) {
    && i < |bs|
    && j < |bs[i].entries|
    && bs[i].entries[j].appName == app
    && (forall k :: 0 <= k < i ==> !HasApp(bs[k].entries, app))
    && (forall l :: 0 <= l < j ==> bs[i].entries[l].appName != app)
  }

  /** Entry `j` of bucket `i` is what a lookup by bucket name, then app name,
      finds: bucket `i` is the first named `bucket`, and entry `j` is its first
      entry named `app`. */
  predicate FirstInBucketAt(bs: seq<Bucket>, bucket: BucketName, app: AppName, i: nat, j: nat) {
    && i < |bs|
    && j < |bs[i].entries|
    && bs[i].name == bucket
    && bs[i].entries[j].appName == app
    && (forall k :: 0 <= k < i ==> bs[k].name != bucket)
    && (forall l :: 0 <= l < j ==> bs[i].entries[l].appName != app)
  }

  /** Bucket `bucket` maps `app` to `m`. */
  predicate Maps(bs: seq<Bucket>, bucket: BucketName, app: AppName, m: Manifest) {
    exists i, j :: 0 <= i < |bs| && 0 <= j < |bs[i].entries| &&
      bs[i].name == bucket && bs[i].entries[j] == Entry(app, m)
  }

  // ---------------------------------------------------------------------
  // Lookups

  /** `HashMap::get` on one bucket: the position of the entry named `app`. */
  function FindEntry(entries: seq<Entry>, app: AppName): (r: Option<nat>)
    ensures r.None? <==> !HasApp(entries, app)
    ensures r.Some? ==>
      && r.value < |entries|
      && entries[r.value].appName == app
      && forall l :: 0 <= l < r.value ==> entries[l].appName != app
  {
    if |entries| == 0 then None
    else if entries[0].appName == app then Some(0)
    else
      match FindEntry(entries[1..], app)
      case None => None
      case Some(j) => Some(j + 1)
  }

  /** `HashMap::get` on the registry: the position of the bucket named `name`. */
  function FindBucket(bs: seq<Bucket>, name: BucketName): (r: Option<nat>)
    ensures r.None? <==> forall i :: 0 <= i < |bs| ==> bs[i].name != name
    ensures r.Some? ==>
      && r.value < |bs|
      && bs[r.value].name == name
      && forall k :: 0 <= k < r.value ==> bs[k].name != name
  {
    if |bs| == 0 then None
    else if bs[0].name == name then Some(0)
    else
      match FindBucket(bs[1..], name)
      case None => None
      case Some(i) => Some(i + 1)
  }

  /** The position of the first match for `app`, scanning buckets in order and
      entries within a bucket in order. */
  function FirstHit(bs: seq<Bucket>, app: AppName): (r: Option<(nat, nat)>)
    ensures r.None? <==> Absent(bs, app)
    ensures r.Some? ==> FirstMatchAt(bs, app, r.value.0, r.value.1)
  {
    if |bs| == 0 then None
    else
      match FindEntry(bs[0].entries, app)
      case Some(j) => Some((0, j))
      case None =>
        match FirstHit(bs[1..], app)
        case None => None
        case Some(hit) =>
          assert FirstMatchAt(bs[1..], app, hit.0, hit.1);
          Some((hit.0 + 1, hit.1))
  }

  /** `Buckets::get_app_from`: the manifest `bucket` holds for `app`, if the
      bucket exists and holds one. */
  function GetAppFrom(bs: seq<Bucket>, app: AppName, bucket: BucketName): (r: Option<Manifest>)
    ensures r.Some? ==> Maps(bs, bucket, app, r.value)
    ensures r.Some? ==> exists i: nat, j: nat ::
      FirstInBucketAt(bs, bucket, app, i, j) && r.value == bs[i].entries[j].manifest
  {
    match FindBucket(bs, bucket)
    case None => None
    case Some(i) =>
      match FindEntry(bs[i].entries, app)
      case None => None
      case Some(j) =>
        assert FirstInBucketAt(bs, bucket, app, i, j);
        Some(bs[i].entries[j].manifest)
  }

  /** `Buckets::get_app`: the manifest for `app` in the first bucket, in
      iteration order, that has one; `None` exactly when no bucket has it. */
  function GetApp(bs: seq<Bucket>, app: AppName): (r: Option<Manifest>)
    ensures r.None? <==> Absent(bs, app)
    ensures r.Some? ==> exists i: nat, j: nat :: FirstMatchAt(bs, app, i, j) && r.value == bs[i].entries[j].manifest
  {
    match FirstHit(bs, app)
    case None => None
    case Some(hit) => Some(bs[hit.0].entries[hit.1].manifest)
  }

  /** Two positions that are both the first match are the same position. */
  lemma FirstMatchUnique(bs: seq<Bucket>, app: AppName, i: nat, j: nat, i': nat, j': nat)
    requires FirstMatchAt(bs, app, i, j) && FirstMatchAt(bs, app, i', j')
    ensures i == i' && j == j'
  {
    if i < i' {
      assert HasApp(bs[i].entries, app);
    } else if i' < i {
      assert HasApp(bs[i'].entries, app);
    }
  }

  /** In a well-formed registry the bucket lookup is exact: it finds `m`
      precisely when bucket `bucket` maps `app` to `m`. */
  lemma GetAppFromExact(bs: seq<Bucket>, app: AppName, bucket: BucketName, m: Manifest)
    requires WellFormed(bs)
    ensures GetAppFrom(bs, app, bucket) == Some(m) <==> Maps(bs, bucket, app, m)
  {
    if Maps(bs, bucket, app, m) {
      var i, j :| 0 <= i < |bs| && 0 <= j < |bs[i].entries| &&
        bs[i].name == bucket && bs[i].entries[j] == Entry(app, m);
      var i' := FindBucket(bs, bucket).value;
      assert i' == i;
      assert HasApp(bs[i].entries, app);
      var j' := FindEntry(bs[i].entries, app).value;
      assert j' == j;
    }
  }

  /** With unique bucket names, `get_app_from` answers `None` exactly when
      the bucket is missing or does not list the app. Entries within a bucket
      may repeat a name. */
  lemma GetAppFromMissing(bs: seq<Bucket>, app: AppName, bucket: BucketName)
    requires UniqueBucketNames(bs)
    ensures GetAppFrom(bs, app, bucket).None? <==>
      forall i :: 0 <= i < |bs| && bs[i].name == bucket ==> !HasApp(bs[i].entries, app)
  {
    if GetAppFrom(bs, app, bucket).None? {
      forall i | 0 <= i < |bs| && bs[i].name == bucket
        ensures !HasApp(bs[i].entries, app)
      {
        assert FindBucket(bs, bucket) == Some(i);
      }
    } else {
      var m := GetAppFrom(bs, app, bucket).value;
      var i, j :| 0 <= i < |bs| && 0 <= j < |bs[i].entries| &&
        bs[i].name == bucket && bs[i].entries[j] == Entry(app, m);
      assert HasApp(bs[i].entries, app);
    }
  }

  /** An app published by exactly one bucket is found the same way with and
      without naming that bucket. */
  lemma {:induction false} GetAppSingleBucket(bs: seq<Bucket>, app: AppName, i: nat)
    requires UniqueBucketNames(bs)
    requires i < |bs| && HasApp(bs[i].entries, app)
    requires forall k :: 0 <= k < |bs| && k != i ==> !HasApp(bs[k].entries, app)
    ensures GetApp(bs, app) == GetAppFrom(bs, app, bs[i].name)
  {
    var hit := FirstHit(bs, app).value;
    assert hit.0 == i by {
      if hit.0 != i {
        assert HasApp(bs[hit.0].entries, app);
      }
    }
    var j := FindEntry(bs[i].entries, app).value;
    FirstMatchUnique(bs, app, hit.0, hit.1, i, j);
    assert FindBucket(bs, bs[i].name) == Some(i);
  }

  // ---------------------------------------------------------------------
  // Exact-name queries against a registry

  /** The entries of one bucket named `app`, in order. */
  function Matching(entries: seq<Entry>, app: AppName): (r: seq<Entry>)
    ensures forall j :: 0 <= j < |r| ==> r[j].appName == app
    ensures |r| > 0 <==> HasApp(entries, app)
    ensures |r| > 0 ==> r[0] == entries[FindEntry(entries, app).value]
  {
    if |entries| == 0 then []
    else if entries[0].appName == app then [entries[0]] + Matching(entries[1..], app)
    else
      var rest := Matching(entries[1..], app);
      assert HasApp(entries[1..], app) ==> HasApp(entries, app);
      assert HasApp(entries, app) ==> HasApp(entries[1..], app) by {
        if HasApp(entries, app) {
          var j :| 0 <= j < |entries| && entries[j].appName == app;
          assert entries[1..][j - 1].appName == app;
        }
      }
      rest
  }

  /** A reference answer of the search index in exact-name mode: every bucket,
      restricted to the entries named `app`. The index itself is not part of
      this model; this is one answer consistent with its contract. */
  function ExactQuery(bs: seq<Bucket>, app: AppName): (r: seq<Bucket>)
    ensures |r| == |bs|
    ensures forall i :: 0 <= i < |r| ==> r[i] == Bucket(bs[i].name, Matching(bs[i].entries, app))
  {
    if |bs| == 0 then []
    else [Bucket(bs[0].name, Matching(bs[0].entries, app))] + ExactQuery(bs[1..], app)
  }

  /** Looking an app up in the exact-name answer gives what `get_app` gives
      on the registry. */
  lemma ExactQueryAgrees(bs: seq<Bucket>, app: AppName)
    ensures GetApp(ExactQuery(bs, app), app) == GetApp(bs, app)
  {
    var q := ExactQuery(bs, app);
    assert forall i :: 0 <= i < |bs| ==> (HasApp(q[i].entries, app) <==> HasApp(bs[i].entries, app)) by {
      forall i | 0 <= i < |bs|
        ensures HasApp(q[i].entries, app) <==> HasApp(bs[i].entries, app)
      {
        if HasApp(bs[i].entries, app) {
          assert q[i].entries[0].appName == app;
        }
      }
    }
    if FirstHit(bs, app).Some? {
      var hit := FirstHit(bs, app).value;
      var hq := FirstHit(q, app).value;
      assert HasApp(q[hit.0].entries, app) by {
        assert HasApp(bs[hit.0].entries, app);
      }
      assert hq.1 == 0 by {
        assert q[hq.0].entries[0].appName == app;
      }
      assert FirstMatchAt(bs, app, hq.0, FindEntry(bs[hq.0].entries, app).value);
      FirstMatchUnique(bs, app, hit.0, hit.1, hq.0, FindEntry(bs[hq.0].entries, app).value);
    }
  }

  // ---------------------------------------------------------------------
  // Listing (`impl Display for Buckets`, without the terminal colours)

  /** The block shown for one app of one bucket. */
  function Block(bucket: BucketName, e: Entry): string {
    e.appName + "/" + bucket + "  v" + e.manifest.version + "\n  " + e.manifest.description + "\n"
  }

  /** The blocks of one bucket's entries, in entry order. Empty exactly
      when the bucket is, and otherwise the first block comes first and the
      text ends a line. */
  function BucketListing(bucket: BucketName, entries: seq<Entry>): (r: string)
    ensures r == "" <==> |entries| == 0
    ensures |entries| > 0 ==> StartsWith(r, Block(bucket, entries[0])) && r[|r| - 1] == '\n'
  {
    if |entries| == 0 then ""
    else
      var head := Block(bucket, entries[0]);
      var rest := BucketListing(bucket, entries[1..]);
      assert (head + rest)[..|head|] == head;
      head + rest
  }

  /** The listing (`impl Display for Buckets`): every bucket's blocks,
      buckets in order. Empty exactly when no bucket has an entry; otherwise
      it ends a line. */
  function Listing(bs: seq<Bucket>): (r: string)
    ensures r == "" <==> EntryCount(bs) == 0
    ensures r != "" ==> r[|r| - 1] == '\n'
  {
    if |bs| == 0 then ""
    else
      var head := BucketListing(bs[0].name, bs[0].entries);
      var rest := Listing(bs[1..]);
      head + rest
  }

  /** The number of (bucket, app) pairs. */
  function EntryCount(bs: seq<Bucket>): nat {
    if |bs| == 0 then 0 else |bs[0].entries| + EntryCount(bs[1..])
  }

  /** The listing of two registries side by side is the two listings
      concatenated. */
  lemma {:induction false} ListingAppend(a: seq<Bucket>, b: seq<Bucket>)
    ensures Listing(a + b) == Listing(a) + Listing(b)
    decreases |a|
  {
    if |a| == 0 {
      assert a + b == b;
    } else {
      assert (a + b)[1..] == a[1..] + b;
      ListingAppend(a[1..], b);
    }
  }

  predicate SingleLine(s: string) {
    '\n' !in s
  }

  /** Names, versions and descriptions that hold no line break. */
  predicate PlainFields(bs: seq<Bucket>) {
    forall i :: 0 <= i < |bs| ==> SingleLine(bs[i].name) && PlainEntries(bs[i].entries)
  }

  predicate PlainEntries(entries: seq<Entry>) {
    forall j :: 0 <= j < |entries| ==>
      && SingleLine(entries[j].appName)
      && SingleLine(entries[j].manifest.version)
      && SingleLine(entries[j].manifest.description)
  }

  lemma BlockLines(bucket: BucketName, e: Entry)
    requires SingleLine(bucket) && SingleLine(e.appName)
    requires SingleLine(e.manifest.version) && SingleLine(e.manifest.description)
    ensures Count(Block(bucket, e), '\n') == 2
  {
    var a := e.appName + "/" + bucket + "  v" + e.manifest.version;
    var d := e.manifest.description;
    assert Block(bucket, e) == a + "\n  " + d + "\n";
    CountAbsent(e.appName, '\n');
    CountAbsent(bucket, '\n');
    CountAbsent(e.manifest.version, '\n');
    CountAbsent(d, '\n');
    CountAppend(e.appName, "/", '\n');
    CountAppend(e.appName + "/", bucket, '\n');
    CountAppend(e.appName + "/" + bucket, "  v", '\n');
    CountAppend(e.appName + "/" + bucket + "  v", e.manifest.version, '\n');
    CountAppend(a, "\n  ", '\n');
    CountAppend(a + "\n  ", d, '\n');
    CountAppend(a + "\n  " + d, "\n", '\n');
  }

  lemma {:induction false} BucketListingLines(bucket: BucketName, entries: seq<Entry>)
    requires SingleLine(bucket) && PlainEntries(entries)
    ensures Count(BucketListing(bucket, entries), '\n') == 2 * |entries|
    decreases |entries|
  {
    if |entries| > 0 {
      BlockLines(bucket, entries[0]);
      BucketListingLines(bucket, entries[1..]);
      CountAppend(Block(bucket, entries[0]), BucketListing(bucket, entries[1..]), '\n');
    }
  }

  /** The listing has one two-line block per app per bucket: when no field
      holds a line break, it has exactly two line breaks per (bucket, app)
      pair. */
  lemma {:induction false} ListingLines(bs: seq<Bucket>)
    requires PlainFields(bs)
    ensures Count(Listing(bs), '\n') == 2 * EntryCount(bs)
    decreases |bs|
  {
    if |bs| > 0 {
      BucketListingLines(bs[0].name, bs[0].entries);
      ListingLines(bs[1..]);
      CountAppend(BucketListing(bs[0].name, bs[0].entries), Listing(bs[1..]), '\n');
    }
  }

  /** The listing of one bucket with one app. */
  lemma ListingExample()
    ensures Listing([Bucket("main", [Entry("foo", Manifest("1.0", "A tool", [], []))])])
      == "foo/main  v1.0\n  A tool\n"
  {
    var e := Entry("foo", Manifest("1.0", "A tool", [], []));
    var b := Bucket("main", [e]);
    assert Block("main", e) == "foo/main  v1.0\n  A tool\n";
    assert BucketListing("main", [e]) == Block("main", e) + BucketListing("main", []);
    assert Listing([b]) == BucketListing("main", [e]) + Listing([]);
  }
}

=== FILE: download.dfy ===
/** The manifest-to-download pipeline: resolve an app reference to a
    manifest, pair each download URL with its expected hash, name each
    artifact's cache file, drop the artifacts already cached, hand the rest to
    the transfer driver, and optionally check every artifact's hash.

    Collaborators enter as parameters: the search index as an `Index`
    function, `Config::cache_dir` and `Config::read` as `Result` values, the
    cache directory's contents as a set of file names, the hash check as a
    predicate over (expected hash, file name), and the transfer driver as a
    function whose outcome the pipeline discards. */
module Downloads {
  import opened Prelude
  import opened Strings
  import opened Manifests
  import opened Errors
  import opened Buckets

  /** What the transfer driver reports for a batch. */
  type Transfer = seq<Request> -> Result<(), ScoopieError>

  datatype DownloadStatus = Success

  /** One artifact of the plan: cache file name, expected hash, source URL. */
  datatype Metadata = Metadata(file: string, hash: Hash, url: Url)

  /** One app's unit of work. */
  datatype DownloadEntry = DownloadEntry(appName: string, version: string, metadata: seq<Metadata>)

  /** A transfer request (the driver's `Download::new(url, file)`). */
  datatype Request = Request(url: Url, file: string)

  datatype DownloadConfig = DownloadConfig(maxRetries: U32, concurrentDownloads: nat)

  datatype Downloader = Downloader(item: DownloadEntry, maxRetries: U32, concurrent: nat, downloadDir: string)

  /** What one run of `download` did: nothing because every artifact was
      cached, or a batch was handed to the driver and `verified` was
      computed (false when no verification was asked for). */
  datatype Activity = AlreadyInCache | Fetched(batch: seq<Request>, verified: bool)

  datatype Report = Report(status: DownloadStatus, activity: Activity)

  // ---------------------------------------------------------------------
  // Planning

  function FragmentText(url: Url): string {
    match url.fragment
    case Some(f) => f
    case None => ""
  }

  /** `format!("{}_{}{}{}", app, version, path, fragment)` before `/` is
      replaced. */
  function Formatted(app: string, version: string, url: Url): string {
    app + "_" + version + url.path + FragmentText(url)
  }

  /** The cache file name of an artifact: the formatted name with every `/`
      turned into `_`, so that it is one path segment. */
  function FileName(app: string, version: string, url: Url): (f: string)
    ensures '/' !in f
    ensures |f| == |Formatted(app, version, url)|
    ensures forall i :: 0 <= i < |f| ==>
      var c := Formatted(app, version, url)[i];
      && (c == '/' ==> f[i] == '_')
      && (c != '/' ==> f[i] == c)
  {
    ReplaceChar(Formatted(app, version, url), '/', '_')
  }

  /** The cache file name of a URL with path `/dir/file` and no fragment:
      the app, the version, the directory and the file joined by `_`. */
  lemma FileNameOfPath(app: string, version: string, text: string, dir: string, file: string)
    requires '/' !in app && '/' !in version && '/' !in dir && '/' !in file
    ensures FileName(app, version, Url(text, "/" + dir + "/" + file, None))
      == app + "_" + version + "_" + dir + "_" + file
  {
    var u := Url(text, "/" + dir + "/" + file, None);
    var head := app + "_" + version;
    assert '/' !in head;
    assert Formatted(app, version, u) == head + "/" + dir + "/" + file;
    ReplaceCharAppend(head + "/" + dir + "/", file, '/', '_');
    ReplaceCharAppend(head + "/" + dir, "/", '/', '_');
    ReplaceCharAppend(head + "/", dir, '/', '_');
    ReplaceCharAppend(head, "/", '/', '_');
    ReplaceCharAbsent(head, '/', '_');
    ReplaceCharAbsent(dir, '/', '_');
    ReplaceCharAbsent(file, '/', '_');
    assert ReplaceChar("/", '/', '_') == "_";
  }

  /** The cache file name of a URL with path `/file` and no fragment. */
  lemma FileNameOfFile(app: string, version: string, text: string, file: string)
    requires '/' !in app && '/' !in version && '/' !in file
    ensures FileName(app, version, Url(text, "/" + file, None)) == app + "_" + version + "_" + file
  {
    var head := app + "_" + version;
    assert '/' !in head;
    assert Formatted(app, version, Url(text, "/" + file, None)) == head + "/" + file;
    ReplaceCharAppend(head + "/", file, '/', '_');
    ReplaceCharAppend(head, "/", '/', '_');
    ReplaceCharAbsent(head, '/', '_');
    ReplaceCharAbsent(file, '/', '_');
    assert ReplaceChar("/", '/', '_') == "_";
    assert head + "_" + file == app + "_" + version + "_" + file;
  }

  /** App `foo` at version 1.0 downloading `https://example.com/foo.zip`
      caches it as `foo_1.0_foo.zip`. */
  lemma FileNameExample()
    ensures FileName("foo", "1.0", Url("https://example.com/foo.zip", "/foo.zip", None)) == "foo_1.0_foo.zip"
  {
    FooLiterals();
    FileNameOfFile("foo", "1.0", "https://example.com/foo.zip", "foo.zip");
  }

  lemma FooLiterals()
    ensures '/' !in "foo" && '/' !in "1.0" && '/' !in "foo.zip"
    ensures "/" + "foo.zip" == "/foo.zip"
    ensures "foo" + "_" + "1.0" + "_" + "foo.zip" == "foo_1.0_foo.zip"
  {
  }

  /** `/` and `_` are the two characters the naming does not tell apart. */
  predicate SlashOrUnderscore(c: char) {
    c == '/' || c == '_'
  }

  /** Names are not injective: two URLs with the same fragment whose paths
      agree everywhere except where one has `/` and the other `_` share a
      cache file, so a cached copy of either makes the other look cached
      too. */
  lemma FileNameCollision(app: string, version: string, u: Url, v: Url)
    requires |u.path| == |v.path| && u.fragment == v.fragment
    requires forall i :: 0 <= i < |u.path| ==>
      u.path[i] == v.path[i] || (SlashOrUnderscore(u.path[i]) && SlashOrUnderscore(v.path[i]))
    ensures FileName(app, version, u) == FileName(app, version, v)
  {
    var fu := Formatted(app, version, u);
    var fv := Formatted(app, version, v);
    var f := FileName(app, version, u);
    var g := FileName(app, version, v);
    var n := |app + "_" + version|;
    var p := |u.path|;
    assert |f| == |g|;
    forall i | 0 <= i < |f|
      ensures f[i] == g[i]
    {
      if i < n {
        assert fu[i] == fv[i];
      } else if i < n + p {
        assert fu[i] == u.path[i - n];
        assert fv[i] == v.path[i - n];
      } else {
        assert fu[i] == FragmentText(u)[i - n - p];
        assert fv[i] == FragmentText(v)[i - n - p];
      }
    }
  }

  /** For example `/x/y` and `/x_y`, on any two hosts. */
  lemma FileNameCollisionExample(app: string, version: string)
    ensures FileName(app, version, Url("https://a.example/x/y", "/x/y", None))
      == FileName(app, version, Url("https://b.example/x_y", "/x_y", None))
  {
    var u := Url("https://a.example/x/y", "/x/y", None);
    var v := Url("https://b.example/x_y", "/x_y", None);
    assert forall i :: 0 <= i < 4 ==>
      u.path[i] == v.path[i] || (SlashOrUnderscore(u.path[i]) && SlashOrUnderscore(v.path[i]));
    FileNameCollision(app, version, u, v);
  }

  /** `zip`: pairs up positions until the shorter input runs out. */
  function Zip<A, B>(xs: seq<A>, ys: seq<B>): (r: seq<(A, B)>)
    ensures |r| == Min(|xs|, |ys|)
    ensures forall i :: 0 <= i < |r| ==> r[i] == (xs[i], ys[i])
  {
    if |xs| == 0 || |ys| == 0 then []
    else [(xs[0], ys[0])] + Zip(xs[1..], ys[1..])
  }

  function Describe(app: string, version: string, pairs: seq<(Url, Hash)>): (md: seq<Metadata>)
    ensures |md| == |pairs|
    ensures forall i :: 0 <= i < |md| ==>
      md[i] == Metadata(FileName(app, version, pairs[i].0), pairs[i].1, pairs[i].0)
  {
    if |pairs| == 0 then []
    else
      var head := Metadata(FileName(app, version, pairs[0].0), pairs[0].1, pairs[0].0);
      [head] + Describe(app, version, pairs[1..])
  }

  /** The download plan of `app` at manifest `m`: one artifact per position
      that has both a URL and a hash (surplus URLs or hashes are dropped),
      artifact `i` pairing `url[i]` with `hash[i]`. */
  function Plan(app: string, m: Manifest): (e: DownloadEntry)
    ensures e.appName == app && e.version == m.version
    ensures |e.metadata| == Min(|m.url|, |m.hash|)
    ensures forall i :: 0 <= i < |e.metadata| ==>
      e.metadata[i] == Metadata(FileName(app, m.version, m.url[i]), m.hash[i], m.url[i])
  {
    DownloadEntry(app, m.version, Describe(app, m.version, Zip(m.url, m.hash)))
  }

  // ---------------------------------------------------------------------
  // Resolution

  /** `DownloadEntry::fetch`: ask the index for `app`, take the first entry
      named `app` (buckets in order, entries in order) and plan it. */
  function Fetch(query: Index, app: string): (r: Result<DownloadEntry, ScoopieError>)
    ensures query(APP, app).Err? ==> r == Err(query(APP, app).error)
    ensures query(APP, app).Ok? ==>
      (r.Err? <==> Absent(query(APP, app).value, app))
    ensures r.Err? && query(APP, app).Ok? ==> r.error == Download(NoAppFound(app))
    ensures r.Ok? ==> query(APP, app).Ok?
    ensures r.Ok? ==>
      var res := query(APP, app).value;
      exists i: nat, j: nat :: FirstMatchAt(res, app, i, j) &&
        r.value == Plan(app, res[i].entries[j].manifest)
  {
    var res :- query(APP, app);
    match GetApp(res, app)
    case None => Err(Download(NoAppFound(app)))
    case Some(m) => Ok(Plan(app, m))
  }

  /** `DownloadEntry::fetch_from`: ask the index for `app`, look only in the
      bucket named `bucket`, and plan its first entry named `app`. */
  function FetchFrom(query: Index, app: string, bucket: string): (r: Result<DownloadEntry, ScoopieError>)
    ensures query(APP, app).Err? ==> r == Err(query(APP, app).error)
    ensures r.Err? && query(APP, app).Ok? ==> r.error == Download(NoAppFoundInBucket(app, bucket))
    ensures r.Ok? ==> query(APP, app).Ok?
    ensures r.Ok? ==>
      var res := query(APP, app).value;
      exists i: nat, j: nat :: FirstInBucketAt(res, bucket, app, i, j) &&
        r.value == Plan(app, res[i].entries[j].manifest)
  {
    var res :- query(APP, app);
    match GetAppFrom(res, app, bucket)
    case None => Err(Download(NoAppFoundInBucket(app, bucket)))
    case Some(m) => Ok(Plan(app, m))
  }

  /** The index answers with a map from bucket names to entry lists, so its
      bucket names are unique; then `fetch_from` fails exactly when no bucket
      of that name lists the app, whatever the other buckets hold. */
  lemma FetchFromFailsExactly(query: Index, app: string, bucket: string)
    requires query(APP, app).Ok? && UniqueBucketNames(query(APP, app).value)
    ensures var res := query(APP, app).value;
      FetchFrom(query, app, bucket).Err? <==>
        forall i :: 0 <= i < |res| && res[i].name == bucket ==> !HasApp(res[i].entries, app)
  {
    GetAppFromMissing(query(APP, app).value, app, bucket);
  }

  /** Resolution of a user's app reference (the first half of
      `Downloader::build_for`). A reference with a `/` is split at its first
      `/` into bucket and app, used as written; otherwise the trimmed,
      lower-cased reference is looked up in every bucket. */
  function Resolve(reference: string, query: Index): (r: Result<DownloadEntry, ScoopieError>)
    ensures '/' in reference ==>
      var k := IndexOf(reference, '/').value;
      && '/' !in reference[..k]
      && r == FetchFrom(query, reference[k + 1..], reference[..k])
    ensures '/' !in reference ==> r == Fetch(query, AsciiLower(Trim(reference)))
  {
    var lookup := AsciiLower(Trim(reference));
    match SplitOnce(reference, '/')
    case Some(parts) => FetchFrom(query, parts.1, parts.0)
    case None => Fetch(query, lookup)
  }

  /** A qualified reference `bucket/app` is looked up exactly as written:
      the bucket is everything before the first `/` and the app everything
      after it, with no trimming or lower-casing of either. */
  lemma ResolveQualified(bucket: string, app: string, query: Index)
    requires '/' !in bucket
    ensures Resolve(bucket + "/" + app, query) == FetchFrom(query, app, bucket)
  {
    var reference := bucket + "/" + app;
    IndexOfAfter(bucket, '/', app);
    assert reference[..|bucket|] == bucket;
    assert reference[|bucket| + 1..] == app;
  }

  /** `Downloader::build_for`: resolve, then read the download settings and
      the cache directory. Resolution errors come first. */
  function BuildFor(
    reference: string,
    query: Index,
    config: Result<DownloadConfig, ScoopieError>,
    cacheDir: Result<string, ScoopieError>
  ): (r: Result<Downloader, ScoopieError>)
    ensures Resolve(reference, query).Err? ==> r == Err(Resolve(reference, query).error)
    ensures Resolve(reference, query).Ok? && config.Err? ==> r == Err(config.error)
    ensures Resolve(reference, query).Ok? && config.Ok? && cacheDir.Err? ==> r == Err(cacheDir.error)
    ensures r.Ok? <==> Resolve(reference, query).Ok? && config.Ok? && cacheDir.Ok?
    ensures r.Ok? ==>
      && r.value.item == Resolve(reference, query).value
      && r.value.maxRetries == config.value.maxRetries
      && r.value.concurrent == config.value.concurrentDownloads
      && r.value.downloadDir == cacheDir.value
  {
    var item :- Resolve(reference, query);
    var cfg :- config;
    var dir :- cacheDir;
    Ok(Downloader(item, cfg.maxRetries, cfg.concurrentDownloads, dir))
  }

  // ---------------------------------------------------------------------
  // Cache filter, verification, download

  function AsRequest(m: Metadata): Request {
    Request(m.url, m.file)
  }

  /** `Metadata::exists`: whether the artifact's file is in the cache
      directory; fails when the cache directory cannot be determined. */
  function Exists(m: Metadata, cacheDir: Result<string, ScoopieError>, cached: set<string>)
    : (r: Result<bool, ScoopieError>)
    ensures r.Err? <==> cacheDir.Err?
    ensures r.Err? ==> r.error == cacheDir.error
    ensures r.Ok? ==> (r.value <==> m.file in cached)
  {
    match cacheDir
    case Err(e) => Err(e)
    case Ok(_) => Ok(m.file in cached)
  }

  /** The transfer requests, in plan order, for the artifacts whose file is
      not in `cached`. */
  function Uncached(md: seq<Metadata>, cached: set<string>): (r: seq<Request>)
    ensures |r| <= |md|
  {
    if |md| == 0 then []
    else (if md[0].file in cached then [] else [AsRequest(md[0])]) + Uncached(md[1..], cached)
  }

  /** `DownloadEntry::get`: one existence check per artifact, keeping the
      request of every artifact not found in the cache. Any failed existence
      check fails the whole result; otherwise the result is the uncached
      requests in plan order. */
  function Pending(md: seq<Metadata>, cacheDir: Result<string, ScoopieError>, cached: set<string>)
    : (r: Result<seq<Request>, ScoopieError>)
    ensures r.Err? <==> cacheDir.Err? && |md| > 0
    ensures r.Err? ==> r.error == cacheDir.error
    ensures r.Ok? ==> r.value == Uncached(md, cached)
  {
    if |md| == 0 then Ok([])
    else
      match Exists(md[0], cacheDir, cached)
      case Err(e) => Err(e)
      case Ok(present) =>
        var rest := Pending(md[1..], cacheDir, cached).value;
        if present then Ok(rest) else Ok([AsRequest(md[0])] + rest)
  }

  /** The requests are exactly those of the uncached artifacts: each one
      comes from an uncached artifact, and each uncached artifact has one. */
  lemma {:induction false} UncachedMembers(md: seq<Metadata>, cached: set<string>)
    ensures forall q :: q in Uncached(md, cached) ==>
      exists m :: m in md && m.file !in cached && q == AsRequest(m)
    ensures forall m :: m in md && m.file !in cached ==> AsRequest(m) in Uncached(md, cached)
    decreases |md|
  {
    if |md| > 0 {
      UncachedMembers(md[1..], cached);
      assert forall m :: m in md ==> m == md[0] || m in md[1..];
      assert forall m :: m in md[1..] ==> m in md;
    }
  }

  /** The filter keeps plan order: the requests for a plan split in two are
      the requests for the first part followed by those for the second. */
  lemma {:induction false} UncachedAppend(a: seq<Metadata>, b: seq<Metadata>, cached: set<string>)
    ensures Uncached(a + b, cached) == Uncached(a, cached) + Uncached(b, cached)
    decreases |a|
  {
    if |a| == 0 {
      assert a + b == b;
    } else {
      assert (a + b)[0] == a[0];
      assert (a + b)[1..] == a[1..] + b;
      UncachedAppend(a[1..], b, cached);
      var head := if a[0].file in cached then [] else [AsRequest(a[0])];
      assert head + (Uncached(a[1..], cached) + Uncached(b, cached))
        == (head + Uncached(a[1..], cached)) + Uncached(b, cached);
    }
  }

  /** One request per artifact, in plan order. */
  function Requests(md: seq<Metadata>): (r: seq<Request>)
    ensures |r| == |md|
    ensures forall i :: 0 <= i < |md| ==> r[i] == AsRequest(md[i])
  {
    if |md| == 0 then [] else [AsRequest(md[0])] + Requests(md[1..])
  }

  /** With none of the plan's files cached, every artifact is requested, in
      plan order. */
  lemma {:induction false} UncachedNoneCached(md: seq<Metadata>, cached: set<string>)
    requires forall i :: 0 <= i < |md| ==> md[i].file !in cached
    ensures Uncached(md, cached) == Requests(md)
    decreases |md|
  {
    if |md| > 0 {
      assert forall i :: 1 <= i < |md| ==> md[1..][i - 1] == md[i];
      UncachedNoneCached(md[1..], cached);
    }
  }

  /** `DownloadEntry::verify`: the AND of the hash check over every artifact
      of the full plan (cached or not); an empty plan verifies. Fails when the
      cache directory cannot be determined. */
  function Verify(e: DownloadEntry, cacheDir: Result<string, ScoopieError>, hashOk: (Hash, string) -> bool)
    : (r: Result<bool, ScoopieError>)
    ensures cacheDir.Err? ==> r == Err(cacheDir.error)
    ensures cacheDir.Ok? ==> r.Ok?
    ensures cacheDir.Ok? ==>
      (r.value <==> forall i :: 0 <= i < |e.metadata| ==> hashOk(e.metadata[i].hash, e.metadata[i].file))
  {
    var _ :- cacheDir;
    Ok(AllVerified(e.metadata, hashOk))
  }

  function AllVerified(md: seq<Metadata>, hashOk: (Hash, string) -> bool): (b: bool)
    ensures b <==> forall i :: 0 <= i < |md| ==> hashOk(md[i].hash, md[i].file)
  {
    if |md| == 0 then true
    else
      assert forall i :: 1 <= i < |md| ==> md[i] == md[1..][i - 1];
      hashOk(md[0].hash, md[0].file) && AllVerified(md[1..], hashOk)
  }

  /** `Downloader::download`. With nothing left to fetch it reports the app
      as already cached and neither transfers nor verifies. Otherwise it
      hands the batch to the driver, ignores what the driver reports, and
      verifies the whole plan only when asked to. */
  function RunDownload(
    d: Downloader,
    verify: bool,
    cacheDir: Result<string, ScoopieError>,
    cached: set<string>,
    hashOk: (Hash, string) -> bool,
    transfer: Transfer
  ): (r: Result<Report, ScoopieError>)
    ensures r.Ok? ==> r.value.status == Success
    ensures r.Err? <==> cacheDir.Err? && |d.item.metadata| > 0
    ensures r.Err? ==> r.error == cacheDir.error
    ensures r.Ok? ==> (r.value.activity.AlreadyInCache? <==>
      forall i :: 0 <= i < |d.item.metadata| ==> d.item.metadata[i].file in cached)
    ensures r.Ok? && r.value.activity.Fetched? ==>
      && r.value.activity.batch == Uncached(d.item.metadata, cached)
      && |r.value.activity.batch| > 0
      && (r.value.activity.verified <==>
           verify && forall i :: 0 <= i < |d.item.metadata| ==>
             hashOk(d.item.metadata[i].hash, d.item.metadata[i].file))
  {
    var md := d.item.metadata;
    var downloads :- Pending(md, cacheDir, cached);
    UncachedMembers(md, cached);
    if |downloads| == 0 then
      assert forall i :: 0 <= i < |md| ==> md[i] in md;
      Ok(Report(Success, AlreadyInCache))
    else
      var _ := transfer(downloads);
      assert downloads[0] in downloads;
      var verified := verify && Verify(d.item, cacheDir, hashOk).value;
      Ok(Report(Success, Fetched(downloads, verified)))
  }

  /** The file names a batch writes into the cache. */
  function FilesOf(batch: seq<Request>): set<string> {
    set k | 0 <= k < |batch| :: batch[k].file
  }

  /** Running the download twice: once the first run's batch has landed in
      the cache, the second run finds everything cached and fetches nothing,
      whatever it is asked to verify. */
  lemma SecondRunIsCached(
    d: Downloader, dir: string, cached: set<string>,
    verify: bool, hashOk: (Hash, string) -> bool, transfer: Transfer)
    ensures var batch := Uncached(d.item.metadata, cached);
      RunDownload(d, verify, Ok(dir), cached + FilesOf(batch), hashOk, transfer)
        == Ok(Report(Success, AlreadyInCache))
  {
    var md := d.item.metadata;
    var batch := Uncached(md, cached);
    UncachedMembers(md, cached);
    forall i | 0 <= i < |md|
      ensures md[i].file in cached + FilesOf(batch)
    {
      if md[i].file !in cached {
        assert md[i] in md;
        var k :| 0 <= k < |batch| && batch[k] == AsRequest(md[i]);
        assert batch[k].file in FilesOf(batch);
      }
    }
  }

  /** A fresh download end to end: when entry `j` of bucket `i` is the first
      match the index reports for a plain lower-case app name, the downloader
      is built for that entry's manifest, and with an empty cache every
      artifact of its plan is requested, in order, and verified when asked. */
  lemma FreshDownload(
    app: string, query: Index, i: nat, j: nat,
    config: Result<DownloadConfig, ScoopieError>, dir: string,
    verify: bool, hashOk: (Hash, string) -> bool, transfer: Transfer)
    requires '/' !in app && AsciiLower(Trim(app)) == app
    requires query(APP, app).Ok? && FirstMatchAt(query(APP, app).value, app, i, j)
    requires config.Ok?
    requires var m := query(APP, app).value[i].entries[j].manifest;
      |m.url| > 0 && |m.hash| > 0
    ensures BuildFor(app, query, config, Ok(dir)).Ok?
    ensures var d := BuildFor(app, query, config, Ok(dir)).value;
      && d.item == Plan(app, query(APP, app).value[i].entries[j].manifest)
      && RunDownload(d, verify, Ok(dir), {}, hashOk, transfer)
        == Ok(Report(Success, Fetched(Requests(d.item.metadata),
             verify && forall k :: 0 <= k < |d.item.metadata| ==>
               hashOk(d.item.metadata[k].hash, d.item.metadata[k].file))))
  {
    ResolveSingle(app, query, i, j);
    var d := BuildFor(app, query, config, Ok(dir)).value;
    RunEmptyCache(d, dir, verify, hashOk, transfer);
  }

  /** A plain lower-case app name resolves to the plan of the first match
      the index reports for it, in bucket order and then entry order. */
  lemma ResolveSingle(app: string, query: Index, i: nat, j: nat)
    requires '/' !in app && AsciiLower(Trim(app)) == app
    requires query(APP, app).Ok? && FirstMatchAt(query(APP, app).value, app, i, j)
    ensures Resolve(app, query) == Ok(Plan(app, query(APP, app).value[i].entries[j].manifest))
  {
    var res := query(APP, app).value;
    var r := Fetch(query, app);
    assert !Absent(res, app) by {
      assert HasApp(res[i].entries, app);
    }
    var i': nat, j': nat :| FirstMatchAt(res, app, i', j') &&
      r.value == Plan(app, res[i'].entries[j'].manifest);
    FirstMatchUnique(res, app, i, j, i', j');
  }

  /** With an empty cache and a non-empty plan, the whole plan is requested
      in order. */
  lemma RunEmptyCache(d: Downloader, dir: string, verify: bool, hashOk: (Hash, string) -> bool, transfer: Transfer)
    requires |d.item.metadata| > 0
    ensures RunDownload(d, verify, Ok(dir), {}, hashOk, transfer)
      == Ok(Report(Success, Fetched(Requests(d.item.metadata),
           verify && forall i :: 0 <= i < |d.item.metadata| ==>
             hashOk(d.item.metadata[i].hash, d.item.metadata[i].file))))
  {
    var md := d.item.metadata;
    UncachedNoneCached(md, {});
    var r := RunDownload(d, verify, Ok(dir), {}, hashOk, transfer);
    assert md[0].file !in {};
    assert r.value.activity.Fetched?;
  }

  /** App `foo` v1.0 with the single URL `https://example.com/foo.zip` and
      hash `h`, published by one bucket, into an empty cache: one file,
      `foo_1.0_foo.zip`, is fetched, and it verifies when its hash checks
      out. */
  lemma FooScenario(
    bucket: string, description: string, h: Hash, query: Index,
    config: Result<DownloadConfig, ScoopieError>, dir: string,
    hashOk: (Hash, string) -> bool, transfer: Transfer)
    requires query(APP, "foo") == Ok([Bucket(bucket, [Entry("foo", FooManifest(description, h))])])
    requires config.Ok?
    requires hashOk(h, "foo_1.0_foo.zip")
    ensures BuildFor("foo", query, config, Ok(dir)).Ok?
    ensures RunDownload(BuildFor("foo", query, config, Ok(dir)).value, true, Ok(dir), {}, hashOk, transfer)
      == Ok(Report(Success, Fetched([Request(FooUrl(), "foo_1.0_foo.zip")], true)))
  {
    FooIsPlain();
    assert FirstMatchAt(query(APP, "foo").value, "foo", 0, 0);
    FreshDownload("foo", query, 0, 0, config, dir, true, hashOk, transfer);
    FooPlan(description, h, hashOk);
  }

  /** The plan of `foo` v1.0 is the one artifact `foo_1.0_foo.zip`, and it
      passes a hash check that accepts `h` for that file. */
  lemma FooPlan(description: string, h: Hash, hashOk: (Hash, string) -> bool)
    requires hashOk(h, "foo_1.0_foo.zip")
    ensures var md := Plan("foo", FooManifest(description, h)).metadata;
      && md == [Metadata("foo_1.0_foo.zip", h, FooUrl())]
      && Requests(md) == [Request(FooUrl(), "foo_1.0_foo.zip")]
      && forall k :: 0 <= k < |md| ==> hashOk(md[k].hash, md[k].file)
  {
    FileNameExample();
    var md := Plan("foo", FooManifest(description, h)).metadata;
    assert md == [Metadata("foo_1.0_foo.zip", h, FooUrl())];
    assert |md| == 1 && md[0].hash == h && md[0].file == "foo_1.0_foo.zip";
  }

  function FooUrl(): Url {
    Url("https://example.com/foo.zip", "/foo.zip", None)
  }

  function FooManifest(description: string, h: Hash): Manifest {
    Manifest("1.0", description, [FooUrl()], [h])
  }

  lemma FooIsPlain()
    ensures '/' !in "foo" && AsciiLower(Trim("foo")) == "foo"
  {
    FooLetters();
    TrimAround("", "foo", "");
    AsciiLowerFixed("foo");
  }

  lemma FooLetters()
    ensures "foo" == "" + "foo" + ""
    ensures |"foo"| > 0 && !IsWhitespace("foo"[0]) && !IsWhitespace("foo"[|"foo"| - 1])
    ensures forall i :: 0 <= i < |"foo"| ==> !IsAsciiUpper("foo"[i])
  {
  }

  /** The driver's verdict on the batch has no effect on the outcome. */
  lemma TransferOutcomeIgnored(
    d: Downloader, verify: bool, cacheDir: Result<string, ScoopieError>,
    cached: set<string>, hashOk: (Hash, string) -> bool, t1: Transfer, t2: Transfer)
    ensures RunDownload(d, verify, cacheDir, cached, hashOk, t1)
      == RunDownload(d, verify, cacheDir, cached, hashOk, t2)
  {
  }
}

=== FILE: errors.dfy ===
/** The application's error values, as far as the core produces or forwards
    them. */
module Errors {

  /** What `std::io::ErrorKind` distinguishes for the core: the two kinds it
      maps specially, and any other kind by name. */
  datatype IoErrorKind = NotFound | PermissionDenied | OtherKind(name: string)

  datatype DownloadError =
    | NoAppFound(app: string)
    | NoAppFoundInBucket(app: string, bucket: string)

  datatype ScoopieError =
    | Download(download: DownloadError)
    | FileNotExist(path: string)
    | PermissionDenied
    | Unknown
    | AbsoultePathResolve
}

=== FILE: manifest.dfy ===
/** The part of a Scoop app manifest the download engine reads: the version,
    the description, the download URLs and their expected hashes (positionally
    aligned). Every other manifest field is carried by the source as an
    untyped JSON value and is not inspected by the core. */
module Manifests {
  import opened Prelude

  /** A parsed URL, reduced to what the core reads from it: the full text
      (handed to the transport), the path, and the fragment without its `#`. */
  datatype Url = Url(text: string, path: string, fragment: Option<string>)

  /** An expected content hash, as written in the manifest. */
  datatype Hash = Hash(text: string)

  datatype Manifest = Manifest(
    version: string,
    description: string,
    url: seq<Url>,
    hash: seq<Hash>)
}

=== FILE: prelude.dfy ===
/** Rust's Option and Result, written as failure-compatible datatypes so that
    the model can use `:-` where the source uses `?`, plus the machine integer
    widths the source stores. */
module Prelude {

  datatype Option<+T> = None | Some(value: T)

  datatype Result<+T, +E> = Ok(value: T) | Err(error: E) {

    predicate IsFailure() {
      Err?
    }

    function PropagateFailure<U>(): Result<U, E>
      requires Err?
    {
      Err(error)
    }

    function Extract(): T
      requires Ok?
    {
      value
    }
  }

  /** Rust's `u32`. */
  type U32 = x: int | 0 <= x < 0x1_0000_0000

  function Min(a: nat, b: nat): nat {
    if a <= b then a else b
  }
}

=== FILE: query.dfy ===
/** The `query` command: how a search term typed by the user becomes a
    request to the search index, and what is shown for the answer. */
module QueryCommand {
  import opened Prelude
  import opened Strings
  import opened Errors
  import opened Buckets

  /** The term is trimmed. A term with an inner space becomes a full-text
      query whose words are the term's whitespace-separated words with `AND`
      between each pair; any other term becomes a keyword query for the term
      itself. Either way a trailing `*` asks for prefix matches. Only a
      space decides the mode: a tab alone between two words leaves the term
      a keyword query. */
  function Translate(term: string): (r: (QueryKind, string))
    ensures r.0 != APP
    ensures r.0 == FULLTEXT <==> ' ' in Trim(term)
    ensures |r.1| > 0 && r.1[|r.1| - 1] == '*'
    ensures r.0 == KEYWORD ==> r.1 == Trim(term) + "*"
    ensures r.0 == FULLTEXT ==>
      r.1[..|r.1| - 1] == Join(Intersperse(SplitWhitespace(Trim(term)), "AND"), " ")
    ensures r.0 == FULLTEXT ==>
      SplitWhitespace(r.1[..|r.1| - 1]) == Intersperse(SplitWhitespace(Trim(term)), "AND")
  {
    var t := Trim(term);
    if ' ' in t then
      var joined := Join(SplitWhitespace(t), " AND ");
      FullTextWords(t);
      (FULLTEXT, joined + "*")
    else
      (KEYWORD, t + "*")
  }

  /** The words of `t` joined by ` AND `, with the `*` appended and taken off
      again, are the words with `AND` between each pair, and split back into
      exactly those. */
  lemma FullTextWords(t: string)
    ensures var joined := Join(SplitWhitespace(t), " AND ");
      && (joined + "*")[..|joined|] == Join(Intersperse(SplitWhitespace(t), "AND"), " ")
      && SplitWhitespace((joined + "*")[..|joined|]) == Intersperse(SplitWhitespace(t), "AND")
  {
    var words := SplitWhitespace(t);
    var joined := Join(words, " AND ");
    SplitWhitespaceWords(t);
    assert " " + "AND" + " " == " AND ";
    SplitJoin(words, "AND");
    JoinIntersperse(words, "AND");
    assert (joined + "*")[..|joined|] == joined;
  }

  /** A full-text query always joins at least two words: the trimmed term
      starts and ends with a non-whitespace character and has a space in
      between. */
  lemma FullTextHasTwoWords(term: string)
    requires Translate(term).0 == FULLTEXT
    ensures |SplitWhitespace(Trim(term))| >= 2
    ensures |SplitWhitespace(Translate(term).1[..|Translate(term).1| - 1])|
      == 2 * |SplitWhitespace(Trim(term))| - 1
  {
    TwoWords(Trim(term));
  }

  /** A string that starts and ends with non-whitespace and holds a space
      has at least two words. */
  lemma TwoWords(t: string)
    requires |t| > 0 && !IsWhitespace(t[0]) && !IsWhitespace(t[|t| - 1])
    requires ' ' in t
    ensures |SplitWhitespace(t)| >= 2
  {
    var k :| 0 <= k < |t| && t[k] == ' ';
    var n := WordLength(t);
    if k < n {
      WordCharacter(t, n, k);
    }
    var u := t[n..];
    assert u[|u| - 1] == t[|t| - 1];
    SplitWhitespaceNonEmpty(u, |u| - 1);
    assert SplitWhitespace(t) == [t[..n]] + SplitWhitespace(u);
  }

  /** A character before the end of a word is not whitespace. */
  lemma WordCharacter(t: string, n: nat, k: nat)
    requires n <= |t| && NoWhitespace(t[..n])
    requires k < n
    ensures !IsWhitespace(t[k])
  {
    assert t[..n][k] == t[k];
  }

  /** `QueryCommand::exec`: the index is asked once, with the translated
      term, and its failure is passed on. On success the command prints the
      answer's listing and a line break: one two-line block per (bucket, app)
      pair of the answer, so one more line break than twice the number of
      matches when no field of the answer holds a line break. */
  function Exec(term: string, index: Index): (r: Result<string, ScoopieError>)
    ensures r.Err? <==> index(Translate(term).0, Translate(term).1).Err?
    ensures r.Err? ==> r.error == index(Translate(term).0, Translate(term).1).error
    ensures r.Ok? ==> r.value == Listing(index(Translate(term).0, Translate(term).1).value) + "\n"
    ensures r.Ok? ==> |r.value| > 0 && r.value[|r.value| - 1] == '\n'
    ensures r.Ok? && PlainFields(index(Translate(term).0, Translate(term).1).value) ==>
      Count(r.value, '\n') == 2 * EntryCount(index(Translate(term).0, Translate(term).1).value) + 1
  {
    var q := Translate(term);
    var res :- index(q.0, q.1);
    PrintedLines(res);
    Ok(Listing(res) + "\n")
  }

  /** The printed answer ends its last line, and counts two lines per match
      plus the line break `println!` adds. */
  lemma PrintedLines(res: seq<Bucket>)
    ensures var out := Listing(res) + "\n";
      && |out| > 0 && out[|out| - 1] == '\n'
      && (PlainFields(res) ==> Count(out, '\n') == 2 * EntryCount(res) + 1)
  {
    CountAppend(Listing(res), "\n", '\n');
    assert Count("\n", '\n') == 1 by {
      assert "\n"[1..] == "";
    }
    if PlainFields(res) {
      ListingLines(res);
    }
  }

  /** An empty answer prints a single empty line, not an error. */
  lemma ExecNoMatches(term: string, index: Index)
    requires index(Translate(term).0, Translate(term).1) == Ok([])
    ensures Exec(term, index) == Ok("\n")
  {
    assert Listing([]) + "\n" == "\n";
  }

  /** Two words separated by whitespace that holds a space: a full-text
      query for both words, AND-ed. */
  lemma TranslatePair(a: string, gap: string, b: string)
    requires |a| > 0 && NoWhitespace(a) && |b| > 0 && NoWhitespace(b)
    requires AllWhitespace(gap) && ' ' in gap
    ensures Translate(a + gap + b) == (FULLTEXT, a + " AND " + b + "*")
  {
    var term := a + gap + b;
    TrimWords(a, gap, b);
    SplitPair(a, gap, b);
    SpaceInside(a, gap, b);
    AndPair(a, b);
    FullTextOf(term, a + " AND " + b);
  }

  /** The full-text query is fixed by its words. */
  lemma FullTextOf(term: string, q: string)
    requires ' ' in Trim(term)
    requires Join(Intersperse(SplitWhitespace(Trim(term)), "AND"), " ") == q
    ensures Translate(term) == (FULLTEXT, q + "*")
  {
    var r := Translate(term);
    LastStar(r.1);
  }

  lemma KeywordOf(term: string)
    requires ' ' !in Trim(term)
    ensures Translate(term) == (KEYWORD, Trim(term) + "*")
  {
  }

  lemma TrimWords(a: string, gap: string, b: string)
    requires |a| > 0 && !IsWhitespace(a[0]) && |b| > 0 && !IsWhitespace(b[|b| - 1])
    ensures Trim(a + gap + b) == a + gap + b
  {
    var term := a + gap + b;
    assert term == "" + term + "";
    TrimAround("", term, "");
  }

  lemma SpaceInside(a: string, gap: string, b: string)
    requires ' ' in gap
    ensures ' ' in a + gap + b
  {
    var k :| 0 <= k < |gap| && gap[k] == ' ';
    assert (a + gap + b)[|a| + k] == ' ';
  }

  lemma AndPair(a: string, b: string)
    ensures Join(Intersperse([a, b], "AND"), " ") == a + " AND " + b
  {
    assert [a, b][1..] == [b];
    assert Intersperse([a, b], "AND") == [a, "AND", b];
    var abc := [a, "AND", b];
    assert abc[1..] == ["AND", b];
    assert ["AND", b][1..] == [b];
    assert Join(["AND", b], " ") == "AND" + " " + b;
    assert a + " " + ("AND" + " " + b) == a + " AND " + b;
  }

  lemma LastStar(s: string)
    requires |s| > 0 && s[|s| - 1] == '*'
    ensures s == s[..|s| - 1] + "*"
  {
  }

  /** One word with whitespace around it: a keyword query for the word. */
  lemma TranslateWord(pre: string, w: string, post: string)
    requires AllWhitespace(pre) && AllWhitespace(post)
    requires |w| > 0 && NoWhitespace(w)
    ensures Translate(pre + w + post) == (KEYWORD, w + "*")
  {
    TrimAround(pre, w, post);
  }

  /** Two words separated by a single tab are not split: the term goes out
      verbatim as a keyword query, although `split_whitespace` would see two
      words in it. */
  lemma TranslateTabIsKeyword(a: string, b: string)
    requires |a| > 0 && NoWhitespace(a) && |b| > 0 && NoWhitespace(b)
    ensures Translate(a + "\t" + b) == (KEYWORD, a + "\t" + b + "*")
    ensures |SplitWhitespace(a + "\t" + b)| == 2
  {
    var term := a + "\t" + b;
    TrimWords(a, "\t", b);
    NoSpaceAround(a, b);
    SplitPair(a, "\t", b);
    KeywordOf(term);
  }

  lemma NoSpaceAround(a: string, b: string)
    requires NoWhitespace(a) && NoWhitespace(b)
    ensures ' ' !in a + "\t" + b
  {
    var term := a + "\t" + b;
    forall i | 0 <= i < |term|
      ensures term[i] != ' '
    {
      if i < |a| {
        assert term[i] == a[i];
      } else if i > |a| {
        assert term[i] == b[i - |a| - 1];
      }
    }
  }

  /** `"foo bar"` becomes the full-text query `"foo AND bar*"`. */
  lemma TranslateTwoWordsExample()
    ensures Translate("foo bar") == (FULLTEXT, "foo AND bar*")
  {
    WordLiterals();
    TranslatePair("foo", " ", "bar");
  }

  /** `"foo"` becomes the keyword query `"foo*"`. */
  lemma TranslateOneWordExample()
    ensures Translate("foo") == (KEYWORD, "foo*")
  {
    WordLiterals();
    TranslateWord("", "foo", "");
  }

  lemma WordLiterals()
    ensures NoWhitespace("foo") && NoWhitespace("bar") && AllWhitespace(" ") && AllWhitespace("")
    ensures "foo" + " " + "bar" == "foo bar" && "" + "foo" + "" == "foo"
    ensures "foo" + " AND " + "bar" + "*" == "foo AND bar*" && "foo" + "*" == "foo*"
  {
  }
}

=== FILE: strings.dfy ===
/** The handful of `str` operations the core relies on: `trim`,
    `split_whitespace`, `join`, `split_once`, `replace`, `starts_with` and
    (ASCII) `to_lowercase`, each given a characterising contract. */
module Strings {
  import opened Prelude

  /** The Unicode White_Space property, which is what Rust's
      `char::is_whitespace` (and so `trim` and `split_whitespace`) tests. */
  predicate IsWhitespace(c: char) {
    || c == ' '
    || ('\t' <= c <= '\r')
    || c == '\U{0085}' || c == '\U{00A0}' || c == '\U{1680}'
    || ('\U{2000}' <= c <= '\U{200A}')
    || c == '\U{2028}' || c == '\U{2029}' || c == '\U{202F}'
    || c == '\U{205F}' || c == '\U{3000}'
  }

  predicate AllWhitespace(s: string) {
    forall i :: 0 <= i < |s| ==> IsWhitespace(s[i])
  }

  predicate NoWhitespace(s: string) {
    forall i :: 0 <= i < |s| ==> !IsWhitespace(s[i])
  }

  predicate StartsWith(s: string, prefix: string) {
    |prefix| <= |s| && s[..|prefix|] == prefix
  }

  // ---------------------------------------------------------------------
  // trim

  /** Every character of `s` from `lo` up to (not including) `hi` is
      whitespace. */
  predicate WhitespaceIn(s: string, lo: nat, hi: nat)
    requires lo <= hi <= |s|
  {
    forall i :: lo <= i < hi ==> IsWhitespace(s[i])
  }

  /** The number of whitespace characters `s` starts with. */
  function LeadingWhitespace(s: string): (k: nat)
    ensures k <= |s|
    ensures WhitespaceIn(s, 0, k)
    ensures k == |s| || !IsWhitespace(s[k])
  {
    if |s| == 0 || !IsWhitespace(s[0]) then 0 else 1 + LeadingWhitespace(s[1..])
  }

  /** The number of whitespace characters `s` ends with. */
  function TrailingWhitespace(s: string): (k: nat)
    ensures k <= |s|
    ensures WhitespaceIn(s, |s| - k, |s|)
    ensures k == |s| || !IsWhitespace(s[|s| - k - 1])
  {
    if |s| == 0 || !IsWhitespace(s[|s| - 1]) then 0
    else 1 + TrailingWhitespace(s[..|s| - 1])
  }

  /** A trailing whitespace run stops short of any non-whitespace
      character. */
  lemma TrailingStopsAt(s: string, k: nat)
    requires k < |s| && !IsWhitespace(s[k])
    ensures k < |s| - TrailingWhitespace(s)
  {
  }

  /** `trim`: `s` with its leading and trailing whitespace removed. The
      result is the slice of `s` that starts after the leading whitespace;
      what lies before and after it is whitespace, and it neither starts
      nor ends with whitespace. */
  function Trim(s: string): (r: string)
    ensures LeadingWhitespace(s) + |r| <= |s|
    ensures r == s[LeadingWhitespace(s)..LeadingWhitespace(s) + |r|]
    ensures WhitespaceIn(s, 0, LeadingWhitespace(s))
    ensures WhitespaceIn(s, LeadingWhitespace(s) + |r|, |s|)
    ensures r == [] || (!IsWhitespace(r[0]) && !IsWhitespace(r[|r| - 1]))
  {
    var k := LeadingWhitespace(s);
    if k == |s| then ""
    else
      TrailingStopsAt(s, k);
      s[k..|s| - TrailingWhitespace(s)]
  }

  /** A whitespace run in front of a string that starts with a
      non-whitespace character is exactly its leading whitespace. */
  lemma {:induction false} LeadingWhitespaceOf(a: string, u: string)
    requires AllWhitespace(a)
    requires u == [] || !IsWhitespace(u[0])
    ensures LeadingWhitespace(a + u) == |a|
    decreases |a|
  {
    if |a| > 0 {
      assert (a + u)[1..] == a[1..] + u;
      LeadingWhitespaceOf(a[1..], u);
    }
  }

  /** A whitespace run behind a string that ends with a non-whitespace
      character is exactly its trailing whitespace. */
  lemma {:induction false} TrailingWhitespaceOf(u: string, b: string)
    requires AllWhitespace(b)
    requires |u| > 0 && !IsWhitespace(u[|u| - 1])
    ensures TrailingWhitespace(u + b) == |b|
    decreases |b|
  {
    if |b| > 0 {
      var s := u + b;
      assert s[..|s| - 1] == u + b[..|b| - 1];
      TrailingWhitespaceOf(u, b[..|b| - 1]);
    }
  }

  /** `trim` removes exactly the whitespace around a string that neither
      starts nor ends with whitespace. */
  lemma TrimAround(a: string, s: string, b: string)
    requires AllWhitespace(a) && AllWhitespace(b)
    requires |s| > 0 && !IsWhitespace(s[0]) && !IsWhitespace(s[|s| - 1])
    ensures Trim(a + s + b) == s
  {
    var x := a + s + b;
    assert x == a + (s + b);
    LeadingWhitespaceOf(a, s + b);
    var t := x[|a|..];
    assert t == s + b;
    TrailingWhitespaceOf(s, b);
    assert t[..|t| - |b|] == s;
  }

  // ---------------------------------------------------------------------
  // split_whitespace

  /** The length of the maximal whitespace-free prefix of `t`. */
  function WordLength(t: string): (n: nat)
    ensures n <= |t|
    ensures NoWhitespace(t[..n])
    ensures n == |t| || IsWhitespace(t[n])
  {
    if |t| == 0 || IsWhitespace(t[0]) then 0 else 1 + WordLength(t[1..])
  }

  /** `split_whitespace`: the maximal runs of non-whitespace characters of
      `s`, in order. Every word is non-empty and free of whitespace; the
      lemma `SplitWhitespaceReassembles` shows that weaving the words back
      together with the whitespace runs between them gives back `s`. */
  function SplitWhitespace(s: string): (words: seq<string>)
    ensures |words| == 0 <==> AllWhitespace(s)
    decreases |s|
  {
    if |s| == 0 then []
    else if IsWhitespace(s[0]) then
      assert AllWhitespace(s) <==> AllWhitespace(s[1..]) by {
        assert forall i :: 1 <= i < |s| ==> s[i] == s[1..][i - 1];
      }
      SplitWhitespace(s[1..])
    else
      var n := WordLength(s);
      [s[..n]] + SplitWhitespace(s[n..])
  }

  /** The whitespace runs around the words of `s`: the run before the first
      word, the runs between words and the run after the last (see
      `GapsAreSeparators`). */
  function Gaps(s: string): (gaps: seq<string>)
    ensures |gaps| == |SplitWhitespace(s)| + 1
    decreases |s|
  {
    if |s| == 0 then [""]
    else if IsWhitespace(s[0]) then
      var g := Gaps(s[1..]);
      [[s[0]] + g[0]] + g[1..]
    else [""] + Gaps(s[WordLength(s)..])
  }

  /** Every gap is whitespace, the gaps between two words are never empty,
      and a string that starts with whitespace has a non-empty first gap. */
  lemma {:induction false} GapsAreSeparators(s: string)
    ensures forall i :: 0 <= i < |Gaps(s)| ==> AllWhitespace(Gaps(s)[i])
    ensures forall i :: 0 < i < |Gaps(s)| - 1 ==> |Gaps(s)[i]| > 0
    ensures |s| > 0 && IsWhitespace(s[0]) ==> |Gaps(s)[0]| > 0
    decreases |s|
  {
    if |s| == 0 {
    } else if IsWhitespace(s[0]) {
      var g := Gaps(s[1..]);
      GapsAreSeparators(s[1..]);
      var gaps := [[s[0]] + g[0]] + g[1..];
      assert Gaps(s) == gaps;
      forall i | 0 <= i < |gaps|
        ensures AllWhitespace(gaps[i])
        ensures 0 < i < |gaps| - 1 ==> |gaps[i]| > 0
      {
        if i > 0 {
          assert gaps[i] == g[i];
        } else {
          assert AllWhitespace(g[0]);
        }
      }
    } else {
      var n := WordLength(s);
      var u := s[n..];
      GapsAreSeparators(u);
      var gaps := [""] + Gaps(u);
      assert Gaps(s) == gaps;
      assert |u| > 0 ==> IsWhitespace(u[0]);
      forall i | 0 <= i < |gaps|
        ensures AllWhitespace(gaps[i])
        ensures 0 < i < |gaps| - 1 ==> |gaps[i]| > 0
      {
        if i > 0 {
          assert gaps[i] == Gaps(u)[i - 1];
          if i < |gaps| - 1 && i == 1 {
            assert |SplitWhitespace(u)| > 0;
            assert |u| > 0;
          }
        }
      }
    }
  }

  /** `gaps[0] + words[0] + gaps[1] + ... + words[n-1] + gaps[n]`. */
  function Weave(gaps: seq<string>, words: seq<string>): string
    requires |gaps| == |words| + 1
    decreases |words|
  {
    gaps[0] + if |words| == 0 then "" else words[0] + Weave(gaps[1..], words[1..])
  }

  /** Splitting on whitespace loses nothing but the whitespace runs: the
      words put back between their gaps give the original string. */
  lemma {:induction false} SplitWhitespaceReassembles(s: string)
    ensures Weave(Gaps(s), SplitWhitespace(s)) == s
    decreases |s|
  {
    if |s| == 0 {
    } else if IsWhitespace(s[0]) {
      SplitWhitespaceReassembles(s[1..]);
      ReassembleAfterSpace(s);
    } else {
      SplitWhitespaceReassembles(s[WordLength(s)..]);
      ReassembleAfterWord(s);
    }
  }

  lemma ReassembleAfterSpace(s: string)
    requires |s| > 0 && IsWhitespace(s[0])
    requires Weave(Gaps(s[1..]), SplitWhitespace(s[1..])) == s[1..]
    ensures Weave(Gaps(s), SplitWhitespace(s)) == s
  {
    var g := Gaps(s[1..]);
    var w := SplitWhitespace(s[1..]);
    assert Weave(Gaps(s), SplitWhitespace(s)) == [s[0]] + Weave(g, w) by {
      assert Gaps(s) == [[s[0]] + g[0]] + g[1..];
      assert SplitWhitespace(s) == w;
      WeaveWiden(s[0], g, w);
    }
    assert [s[0]] + s[1..] == s;
  }

  lemma ReassembleAfterWord(s: string)
    requires |s| > 0 && !IsWhitespace(s[0])
    requires Weave(Gaps(s[WordLength(s)..]), SplitWhitespace(s[WordLength(s)..])) == s[WordLength(s)..]
    ensures Weave(Gaps(s), SplitWhitespace(s)) == s
  {
    var n := WordLength(s);
    var u := s[n..];
    assert Weave(Gaps(s), SplitWhitespace(s)) == s[..n] + u by {
      assert Gaps(s) == [""] + Gaps(u);
      assert SplitWhitespace(s) == [s[..n]] + SplitWhitespace(u);
      WeaveCons("", s[..n], Gaps(u), SplitWhitespace(u));
    }
    TakeDrop(s, n);
  }

  lemma TakeDrop(s: string, n: nat)
    requires n <= |s|
    ensures s[..n] + s[n..] == s
  {
  }

  /** Weaving after a leading gap and a leading word. */
  lemma WeaveCons(g: string, w: string, gaps: seq<string>, words: seq<string>)
    requires |gaps| == |words| + 1
    ensures Weave([g] + gaps, [w] + words) == g + w + Weave(gaps, words)
  {
    assert ([g] + gaps)[1..] == gaps;
    assert ([w] + words)[1..] == words;
  }

  /** Widening the first gap by one character widens the weave by it. */
  lemma WeaveWiden(c: char, gaps: seq<string>, words: seq<string>)
    requires |gaps| == |words| + 1
    ensures Weave([[c] + gaps[0]] + gaps[1..], words) == [c] + Weave(gaps, words)
  {
    var wider := [[c] + gaps[0]] + gaps[1..];
    assert wider[1..] == gaps[1..];
  }

  /** Every word is non-empty and free of whitespace. */
  lemma {:induction false} SplitWhitespaceWords(s: string)
    ensures forall i :: 0 <= i < |SplitWhitespace(s)| ==>
      |SplitWhitespace(s)[i]| > 0 && NoWhitespace(SplitWhitespace(s)[i])
    decreases |s|
  {
    if |s| > 0 {
      if IsWhitespace(s[0]) {
        SplitWhitespaceWords(s[1..]);
      } else {
        var n := WordLength(s);
        SplitWhitespaceWords(s[n..]);
        var words := [s[..n]] + SplitWhitespace(s[n..]);
        assert SplitWhitespace(s) == words;
        forall i | 0 <= i < |words|
          ensures |words[i]| > 0 && NoWhitespace(words[i])
        {
          if i > 0 {
            assert words[i] == SplitWhitespace(s[n..])[i - 1];
          }
        }
      }
    }
  }

  /** A string holding a non-whitespace character has at least one word. */
  lemma {:induction false} SplitWhitespaceNonEmpty(s: string, k: nat)
    requires k < |s| && !IsWhitespace(s[k])
    ensures |SplitWhitespace(s)| > 0
    decreases |s|
  {
    if IsWhitespace(s[0]) {
      SplitWhitespaceNonEmpty(s[1..], k - 1);
    }
  }

  /** A word followed by whitespace (or by nothing) is read off whole. */
  lemma {:induction false} WordLengthOfWord(w: string, u: string)
    requires NoWhitespace(w)
    requires u == [] || IsWhitespace(u[0])
    ensures WordLength(w + u) == |w|
    decreases |w|
  {
    if |w| > 0 {
      assert (w + u)[1..] == w[1..] + u;
      WordLengthOfWord(w[1..], u);
    } else {
      assert w + u == u;
    }
  }

  /** Splitting a word followed by whitespace (or by nothing) yields that
      word and then the words of the rest. */
  lemma SplitWordThen(w: string, u: string)
    requires |w| > 0 && NoWhitespace(w)
    requires u == [] || IsWhitespace(u[0])
    ensures SplitWhitespace(w + u) == [w] + SplitWhitespace(u)
  {
    var s := w + u;
    WordLengthOfWord(w, u);
    assert s[0] == w[0];
    assert s[..|w|] == w;
    assert s[|w|..] == u;
  }

  // ---------------------------------------------------------------------
  // join

  /** The total length of the words. */
  function TotalLength(words: seq<string>): nat {
    if |words| == 0 then 0 else |words[0]| + TotalLength(words[1..])
  }

  /** `join`: the words with `sep` between consecutive ones. The result
      starts with the first word and holds every word and one separator
      between each pair, nothing else. */
  function Join(words: seq<string>, sep: string): (r: string)
    ensures |words| == 0 ==> r == ""
    ensures |words| > 0 ==> StartsWith(r, words[0])
    ensures |words| > 0 ==> |r| == TotalLength(words) + (|words| - 1) * |sep|
  {
    if |words| == 0 then ""
    else if |words| == 1 then words[0]
    else
      var rest := Join(words[1..], sep);
      assert (|words| - 1) * |sep| == |sep| + (|words[1..]| - 1) * |sep|;
      assert (words[0] + sep + rest)[..|words[0]|] == words[0];
      words[0] + sep + rest
  }

  /** The words with `w` between consecutive ones, as a word list. */
  function Intersperse(words: seq<string>, w: string): (r: seq<string>)
    ensures |words| > 0 ==> |r| == 2 * |words| - 1
  {
    if |words| <= 1 then words
    else [words[0], w] + Intersperse(words[1..], w)
  }

  /** Joining with ` w ` is joining the words with `w` interleaved, by
      single spaces. */
  lemma {:induction false} JoinIntersperse(words: seq<string>, w: string)
    ensures Join(words, " " + w + " ") == Join(Intersperse(words, w), " ")
    decreases |words|
  {
    if |words| >= 2 {
      var rest := words[1..];
      JoinIntersperse(rest, w);
      var tail := Intersperse(rest, w);
      assert |tail| > 0;
      var all := [words[0], w] + tail;
      assert all[1..] == [w] + tail;
      assert ([w] + tail)[1..] == tail;
    }
  }

  /** Joining words with a separator word padded by single spaces and then
      splitting on whitespace yields the words with the separator word
      between them: the join is undone by the split. */
  lemma {:induction false} SplitJoin(words: seq<string>, w: string)
    requires forall i :: 0 <= i < |words| ==> |words[i]| > 0 && NoWhitespace(words[i])
    requires |w| > 0 && NoWhitespace(w)
    ensures SplitWhitespace(Join(words, " " + w + " ")) == Intersperse(words, w)
    decreases |words|
  {
    var sep := " " + w + " ";
    if |words| == 1 {
      SplitWordThen(words[0], []);
      assert words[0] + [] == words[0];
    } else if |words| > 1 {
      var rest := Join(words[1..], sep);
      var tail := Intersperse(words[1..], w);
      assert Join(words, sep) == words[0] + (sep + rest);
      assert Intersperse(words, w) == [words[0], w] + tail;
      assert SplitWhitespace(rest) == tail by {
        SplitJoin(words[1..], w);
      }
      assert SplitWhitespace(sep + rest) == [w] + tail by {
        JoinStart(words[1..], sep);
        SplitSeparatorThen(w, rest);
      }
      assert SplitWhitespace(words[0] + (sep + rest)) == [words[0]] + ([w] + tail) by {
        SplitWordThen(words[0], sep + rest);
      }
      ConsPair(words[0], w, tail);
    }
  }

  lemma ConsPair(a: string, b: string, xs: seq<string>)
    ensures [a] + ([b] + xs) == [a, b] + xs
  {
  }

  /** A whitespace run in front contributes no word. */
  lemma {:induction false} SplitAfterWhitespace(gap: string, u: string)
    requires AllWhitespace(gap)
    ensures SplitWhitespace(gap + u) == SplitWhitespace(u)
    decreases |gap|
  {
    if |gap| > 0 {
      var rest := gap[1..] + u;
      assert gap + u == [gap[0]] + rest;
      SplitSpaceThen(gap[0], rest);
      SplitAfterWhitespace(gap[1..], u);
    } else {
      assert gap + u == u;
    }
  }

  /** Two words with whitespace between them split into exactly those
      words. */
  lemma SplitPair(a: string, gap: string, b: string)
    requires |a| > 0 && NoWhitespace(a) && |b| > 0 && NoWhitespace(b)
    requires |gap| > 0 && AllWhitespace(gap)
    ensures SplitWhitespace(a + gap + b) == [a, b]
  {
    assert a + gap + b == a + (gap + b);
    SplitWordThen(a, gap + b);
    SplitAfterWhitespace(gap, b);
    assert b == b + "";
    SplitWordThen(b, "");
  }

  /** A leading whitespace character contributes no word. */
  lemma SplitSpaceThen(c: char, u: string)
    requires IsWhitespace(c)
    ensures SplitWhitespace([c] + u) == SplitWhitespace(u)
  {
    assert ([c] + u)[1..] == u;
  }

  /** A separator word padded by spaces is read off as one word. */
  lemma SplitSeparatorThen(w: string, rest: string)
    requires |w| > 0 && NoWhitespace(w)
    requires |rest| > 0 && !IsWhitespace(rest[0])
    ensures SplitWhitespace(" " + w + " " + rest) == [w] + SplitWhitespace(rest)
  {
    var tail := " " + rest;
    var a := w + tail;
    assert " " + w + " " + rest == [' '] + a;
    assert SplitWhitespace([' '] + a) == SplitWhitespace(a) by {
      SplitSpaceThen(' ', a);
    }
    assert SplitWhitespace(a) == [w] + SplitWhitespace(tail) by {
      SplitWordThen(w, tail);
    }
    assert SplitWhitespace(tail) == SplitWhitespace(rest) by {
      assert tail == [' '] + rest;
      SplitSpaceThen(' ', rest);
    }
  }

  /** A join of non-empty words starts with the first word's first character. */
  lemma JoinStart(words: seq<string>, sep: string)
    requires |words| > 0 && |words[0]| > 0
    ensures |Join(words, sep)| > 0 && Join(words, sep)[0] == words[0][0]
  {
  }

  // ---------------------------------------------------------------------
  // split_once, replace, to_lowercase

  /** The index of the first occurrence of `c` in `s`. */
  function IndexOf(s: string, c: char): (r: Option<nat>)
    ensures r.None? <==> c !in s
    ensures r.Some? ==> r.value < |s| && s[r.value] == c && c !in s[..r.value]
  {
    if |s| == 0 then None
    else if s[0] == c then Some(0)
    else
      match IndexOf(s[1..], c)
      case None => None
      case Some(k) =>
        assert s[..k + 1] == [s[0]] + s[1..][..k];
        Some(k + 1)
  }

  /** The first `c` of `a + [c] + b` is the one after `a` when `a` has
      none. */
  lemma {:induction false} IndexOfAfter(a: string, c: char, b: string)
    requires c !in a
    ensures IndexOf(a + [c] + b, c) == Some(|a|)
    decreases |a|
  {
    if |a| > 0 {
      assert (a + [c] + b)[1..] == a[1..] + [c] + b;
      IndexOfAfter(a[1..], c, b);
    }
  }

  /** `split_once(c)`: the text before and after the first `c`. */
  function SplitOnce(s: string, c: char): (r: Option<(string, string)>)
    ensures r.None? <==> c !in s
    ensures r.Some? ==> s == r.value.0 + [c] + r.value.1 && c !in r.value.0
  {
    match IndexOf(s, c)
    case None => None
    case Some(k) =>
      assert s == s[..k] + [c] + s[k + 1..];
      Some((s[..k], s[k + 1..]))
  }

  /** `replace(from, to)` for single-character patterns: every `from`
      becomes `to`, every other character is kept in place. */
  function ReplaceChar(s: string, from: char, to: char): (r: string)
    ensures |r| == |s|
    ensures forall i :: 0 <= i < |s| ==> r[i] == (if s[i] == from then to else s[i])
    ensures from != to ==> from !in r
  {
    if |s| == 0 then ""
    else [if s[0] == from then to else s[0]] + ReplaceChar(s[1..], from, to)
  }

  /** Replacing distributes over concatenation. */
  lemma ReplaceCharAppend(a: string, b: string, from: char, to: char)
    ensures ReplaceChar(a + b, from, to) == ReplaceChar(a, from, to) + ReplaceChar(b, from, to)
  {
    var l := ReplaceChar(a + b, from, to);
    var r := ReplaceChar(a, from, to) + ReplaceChar(b, from, to);
    assert |l| == |r|;
    forall i | 0 <= i < |l|
      ensures l[i] == r[i]
    {
      if i >= |a| {
        assert (a + b)[i] == b[i - |a|];
      }
    }
  }

  /** A string without the replaced character is left alone. */
  lemma ReplaceCharAbsent(s: string, from: char, to: char)
    requires from !in s
    ensures ReplaceChar(s, from, to) == s
  {
    var r := ReplaceChar(s, from, to);
    assert forall i :: 0 <= i < |s| ==> r[i] == s[i];
  }

  predicate IsAsciiUpper(c: char) {
    'A' <= c <= 'Z'
  }

  /** Lower-casing restricted to ASCII: upper-case ASCII letters move down
      by 32, every other character is kept. */
  function AsciiLower(s: string): (r: string)
    ensures |r| == |s|
    ensures forall i :: 0 <= i < |s| ==>
      r[i] == (if IsAsciiUpper(s[i]) then (s[i] as int + 32) as char else s[i])
    ensures forall i :: 0 <= i < |r| ==> !IsAsciiUpper(r[i])
  {
    if |s| == 0 then ""
    else
      var c := if IsAsciiUpper(s[0]) then (s[0] as int + 32) as char else s[0];
      [c] + AsciiLower(s[1..])
  }

  /** A string without upper-case ASCII letters is its own lower-case
      form. */
  lemma AsciiLowerFixed(s: string)
    requires forall i :: 0 <= i < |s| ==> !IsAsciiUpper(s[i])
    ensures AsciiLower(s) == s
  {
    var r := AsciiLower(s);
    assert forall i :: 0 <= i < |s| ==> r[i] == s[i];
  }

  /** The number of occurrences of `c` in `s`. */
  function Count(s: string, c: char): nat {
    if |s| == 0 then 0 else (if s[0] == c then 1 else 0) + Count(s[1..], c)
  }

  lemma {:induction false} CountAppend(a: string, b: string, c: char)
    ensures Count(a + b, c) == Count(a, c) + Count(b, c)
    decreases |a|
  {
    if |a| > 0 {
      assert (a + b)[1..] == a[1..] + b;
      CountAppend(a[1..], b, c);
    } else {
      assert a + b == b;
    }
  }

  lemma CountAbsent(s: string, c: char)
    requires c !in s
    ensures Count(s, c) == 0
  {
    if |s| > 0 {
      assert c !in s[1..];
      CountAbsent(s[1..], c);
    }
  }
}

=== FILE: utils.dfy ===
/** Path helpers: removing a file or directory tree with the I/O error kind
    mapped to the application's errors, and making a path absolute with the
    Windows verbatim prefix taken off. The file system itself is a
    parameter. */
module Utils {
  import opened Prelude
  import opened Strings
  import opened Errors

  // ---------------------------------------------------------------------
  // Remove::rm

  /** What `rm` asks of the file system: `remove_file` for a file,
      `remove_dir_all` for anything else. */
  datatype Removal = RemoveFile(path: string) | RemoveDirAll(path: string)

  /** The file system's answer to a removal. */
  type FileSystem = Removal -> Result<(), IoErrorKind>

  /** The application error an I/O failure of `rm` is reported as. */
  function RemovalError(path: string, kind: IoErrorKind): (e: ScoopieError)
    ensures e.FileNotExist? <==> kind.NotFound?
    ensures e.FileNotExist? ==> e.path == path
    ensures e.PermissionDenied? <==> kind.PermissionDenied?
    ensures e.Unknown? <==> kind.OtherKind?
  {
    match kind
    case NotFound => FileNotExist(path)
    case PermissionDenied => ScoopieError.PermissionDenied
    case OtherKind(_) => Unknown
  }

  /** `PathBuf::rm`: a file is removed on its own, anything else (a directory,
      or a path that does not exist) as a whole tree; success passes through
      and a failure is mapped by its kind. */
  function Rm(path: string, isFile: bool, fs: FileSystem): (r: Result<(), ScoopieError>)
    ensures var op := if isFile then RemoveFile(path) else RemoveDirAll(path);
      && (r.Ok? <==> fs(op).Ok?)
      && (r == Err(FileNotExist(path)) <==> fs(op) == Err(NotFound))
      && (r == Err(ScoopieError.PermissionDenied) <==> fs(op) == Err(IoErrorKind.PermissionDenied))
      && (r == Err(Unknown) <==> fs(op).Err? && fs(op).error.OtherKind?)
  {
    var op := if isFile then RemoveFile(path) else RemoveDirAll(path);
    match fs(op)
    case Ok(_) => Ok(())
    case Err(kind) => Err(RemovalError(path, kind))
  }

  /** Every removal error names one of three outcomes, and only "not found"
      carries the path. */
  lemma RmErrors(path: string, isFile: bool, fs: FileSystem)
    requires Rm(path, isFile, fs).Err?
    ensures Rm(path, isFile, fs).error in {FileNotExist(path), ScoopieError.PermissionDenied, Unknown}
  {
  }

  // ---------------------------------------------------------------------
  // Absolute::absolute

  /** The Windows verbatim path prefix `\\?\`. */
  const VerbatimPrefix: string := "\\\\?\\"

  /** The path text with a leading verbatim prefix removed; a path without
      it is kept as is. */
  function StripVerbatimPrefix(s: string): (r: string)
    ensures StartsWith(s, VerbatimPrefix) ==> s == VerbatimPrefix + r
    ensures !StartsWith(s, VerbatimPrefix) ==> r == s
  {
    if StartsWith(s, VerbatimPrefix) then s[|VerbatimPrefix|..] else s
  }

  /** `PathBuf::absolute`: the canonical form of the path (given here as the
      file system's answer), without its verbatim prefix; any failure to
      canonicalise becomes `AbsoultePathResolve`. */
  function Absolute(canonical: Result<string, IoErrorKind>): (r: Result<string, ScoopieError>)
    ensures r.Err? <==> canonical.Err?
    ensures r.Err? ==> r.error == AbsoultePathResolve
    ensures r.Ok? ==> (canonical.value == r.value || canonical.value == VerbatimPrefix + r.value)
    ensures r.Ok? ==> (|r.value| == |canonical.value| <==> !StartsWith(canonical.value, VerbatimPrefix))
  {
    match canonical
    case Err(_) => Err(AbsoultePathResolve)
    case Ok(p) => Ok(StripVerbatimPrefix(p))
  }

  /** Stripping undoes prefixing. */
  lemma StripPrefixed(p: string)
    ensures StripVerbatimPrefix(VerbatimPrefix + p) == p
  {
    assert (VerbatimPrefix + p)[..|VerbatimPrefix|] == VerbatimPrefix;
  }

  /** Only one prefix is removed: a doubly prefixed path keeps one. */
  lemma StripOnce(p: string)
    ensures StripVerbatimPrefix(VerbatimPrefix + VerbatimPrefix + p) == VerbatimPrefix + p
  {
    assert VerbatimPrefix + VerbatimPrefix + p == VerbatimPrefix + (VerbatimPrefix + p);
    StripPrefixed(VerbatimPrefix + p);
  }

  /** A drive-letter path comes back unchanged, a verbatim one loses its
      prefix. */
  lemma AbsoluteExamples()
    ensures Absolute(Ok("C:\\scoop")) == Ok("C:\\scoop")
    ensures Absolute(Ok("\\\\?\\C:\\scoop")) == Ok("C:\\scoop")
    ensures Absolute(Err(NotFound)) == Err(AbsoultePathResolve)
  {
    assert !StartsWith("C:\\scoop", VerbatimPrefix) by {
      assert "C:\\scoop"[0] != VerbatimPrefix[0];
    }
    StripPrefixed("C:\\scoop");
    assert VerbatimPrefix + "C:\\scoop" == "\\\\?\\C:\\scoop";
  }
}
